=== FILE: README.md ===
# Incremental computation: Make-like dependencies and differentiable stages

This project is a Dafny model of a small Python sketchbook. The sketchbook compares two styles of incremental computation.

- **Make-like pull engine** (`deps.py`). A dependency graph maps each derived node to a callback and the nodes it depends on. Nodes without a rule are *sources*, which `write` sets.
  - `read` brings a node up to date by recursion. A derived node is rebuilt when it was never built or when the version of some dependency differs from the one recorded at its last build.
  - Every rebuild, and every write of a source, increments the node's version.
- **Differentiable stages** (`diffs.py`). A stage has `compute` (inputs to outputs, remembering state) and `update` (input deltas to output deltas, called only after `compute`).
  - Combinators: `Pipeline`, `Fork`, `Parallel`.
  - Concrete stages: `FilterLog`, `Sum`, `Log` and `Log1`.
  - The push-based `Graph` runs the stages of a dataflow graph in a depth-first topological order, computing or updating each node from its dependencies' results.
- **Adapters between the two** (`deps-compute-update.py`). Here a *dep-like* delta is either "unchanged" (`None`) or `New(value)`.
  - `Rerunner` lifts a plain function into a stage that reruns it when some argument is new.
  - `DiffsFrom` presents a Make-like store as a stage.
  - `DepsFrom` presents a stage as a Make-like store.

Modelling choices:

- Python objects that mutate themselves become immutable records. Every operation takes the old state and returns the new one.
- Python exceptions and failed `assert`s become the `Err` side of a `Result`.
- A Python dict whose iteration order matters is a `Dicts.Dict`: the keys in insertion order, plus a map.
- Callbacks and stage functions are function-typed parameters.
- Acyclicity of a dependency graph is a ghost `rank` that strictly decreases along every dependency. This is what makes the recursion in `compute` terminate.

Modules, one per concern:

| module | models |
|---|---|
| `Makelike` | `deps.py`: State, write, read, compute. A from-scratch reference semantics `Eval` and a freshness analysis. |
| `Stages` | The stage abstraction and what it means for a stage to be *incremental*: the update's output delta, applied to the old output, gives the from-scratch output of the patched input. |
| `Combinators` | Pipeline, Fork, Parallel (as written and corrected). |
| `Logs`, `FilterLog`, `Sum` | The concrete stages. |
| `PushGraph` | `Graph`: the depth-first order, `compute`, `update`. |
| `GraphLaws` | Incrementality of `Graph` built from incremental stages. |
| `Deltas` | `New` / `None` deltas and applying named deltas. |
| `Rerun` | `Rerunner` (as written and corrected). |
| `DiffsFrom` | `DiffsFrom` over the Make-like engine. |
| `DepsFrom` | `DepsFrom` over any named-input stage. |
| `Adapters` | `DepsFrom` applied to a `DiffsFrom` over a Make-like graph, and to a `Rerunner`: what these round trips compute. |

## Model

| member | source | states |
|---|---|---|
| Makelike.Write | deps.py:56-63 | Writing fails exactly when the node has a rule. Otherwise the node holds the value with no recorded dependency versions, at version 0 on its first write and one more than before afterwards. Every other node is untouched. |
| Makelike.Compute | deps.py:72-97 | For a source, it fails exactly when the source was never written, and returns its state unchanged. For any node, the returned state is the one stored for it. The table only evolves: no entry disappears, no source changes, and a derived entry changes only to a strictly higher version. |
| Makelike.Read | deps.py:67-69 | Reading succeeds exactly when the from-scratch evaluation from the written sources is defined. On a coherent table the value read is that evaluation, and the table stays coherent. |
| Makelike.ComputeCorrect | deps.py:72-97 | On a coherent table (every built node consistent with the versions it recorded), the memoised `compute` returns the value that evaluation from scratch gives and leaves the table coherent. |
| Makelike.ComputeFailsIffUnwritten | deps.py:75-76 | `compute` fails (the `KeyError` of a source lookup) exactly when the node transitively needs a source that was never written. |
| Makelike.ComputeKeepsSources | deps.py:72-97 | `compute` never changes a source's value. |
| Makelike.WriteKeepsCoherent | deps.py:56-63 | A successful write keeps the table coherent: the written source's new version differs from every version recorded for it. |
| Makelike.RebuildKeepsCoherent | deps.py:90-95 | A rebuild records the dependencies' current versions, so the rebuilt node is coherent with them. |
| Makelike.FreshCorrect | deps.py:83-97 | In a coherent table, the stored value of a node that is fresh (in sync with all its transitive dependencies) is its from-scratch value. |
| Makelike.FreshHit | deps.py:83-97 | Computing a fresh node rebuilds nothing: it returns the stored state and leaves the table as it was. |
| Makelike.ComputeMakesFresh | deps.py:72-97 | After `compute`, the node is fresh. |
| Makelike.ComputeKeepsFresh | deps.py:72-97 | `compute` keeps every node that was fresh fresh. |
| Makelike.InSyncIffNotStale | deps.py:87-88 | The rebuild test (some dependency's version differs from the one recorded at that position) fails exactly when the node is in sync with its dependencies. |
| Makelike.RebuildRule | deps.py:86-95 | A never-built or stale derived node gets the callback of its dependencies' values, their versions, and version 0 or one more than before. An in-sync node keeps its state. |
| Makelike.ComputeIdempotent | deps.py:72-97 | Computing a node a second time returns the same state and leaves the table unchanged. |
| Makelike.ReadTwice | deps.py:67-69 | Reading a node twice gives the same value, and the second read changes nothing. |
| Makelike.ComputeFrame | deps.py:72-97 | `compute` of a node changes only entries of nodes it transitively depends on. |
| Makelike.WriteKeepsOthersFresh | deps.py:56-63 | Writing a source keeps fresh every fresh node that does not depend on that source. |
| Makelike.UnrelatedNotRebuilt | deps.py:83-95 | After a write, computing any node leaves untouched every fresh node that does not depend on the written source. |
| Makelike.DependentRebuilt | deps.py:86-95 | After a write to a source, computing a node that depends on it yields a strictly higher version than it had: it was rebuilt. A derived node is rebuilt exactly once, so its version is exactly one more. |
| Stages.ReplayExact | diffs.py:4-9 | For an incremental stage, any sequence of updates from a state tied to input `a` keeps it exact: the output deltas, applied in turn to the first output, give the from-scratch output of `a` with every input delta applied, and the final state is tied to that input. |
| Stages.ComputeThenReplay | diffs.py:4-9 | The same, starting from `compute`. |
| Combinators.PipelineCompute | diffs.py:16-19 | The result is a one-element list, and there is one state per stage. An empty pipeline returns its input. The first stage's state is the one its `compute` produced. |
| Combinators.PipelineUpdate | diffs.py:21-24 | The same shape for deltas: each stage is updated in its own state. |
| Combinators.PipelineComputeExact | diffs.py:16-19 | A pipeline of incremental stages outputs the composition of their from-scratch functions, and each stage's state is tied to the input that stage sees. |
| Combinators.PipelineUpdateExact | diffs.py:21-24 | A pipeline of incremental stages is incremental: the output delta carries the old composed output to the composed output of the patched input, and every stage's invariant moves to its new input. |
| Combinators.ForkCompute | diffs.py:34-36 | One run of `f`, then `g` and `h` on its output. Its contract is carried by Combinators.ForkComputeExact. |
| Combinators.ForkUpdate | diffs.py:37-39 | One update of `f`, then `g` and `h` updated with its delta. Its contract is carried by Combinators.ForkUpdateExact. |
| Combinators.ForkComputeExact | diffs.py:34-36 | A fork of incremental stages outputs `g(f(a))` and `h(f(a))` from a single run of `f`. |
| Combinators.ForkUpdateExact | diffs.py:37-39 | A fork of incremental stages is incremental in both outputs. |
| Combinators.ParallelCompute | diffs.py:45-46 | The two stages computed side by side. Its contract is carried by Combinators.ParallelComputeExact. |
| Combinators.ParallelUpdateAsWritten | diffs.py:47-48 | As written, the second delta goes to `g.compute`. Its consequences are stated by Logs.ParallelAsWrittenResetsLog and Logs.ParallelAsWrittenNotIncremental. |
| Combinators.ParallelUpdate | diffs.py:47-48 | The corrected update: both parts update in their own states. Its contract is carried by Combinators.ParallelUpdateExact. |
| Combinators.ParallelComputeExact | diffs.py:45-46 | Side by side, incremental stages compute both from-scratch outputs. |
| Combinators.ParallelUpdateExact | diffs.py:47-48 | The corrected `Parallel.update`, which updates both parts, is incremental in both outputs. |
| Logs.Log1Compute | diffs.py:84-86 | The output is the input, and the log restarts with it. Its contract is carried by Logs.Log1History and Logs.Log1Incremental. |
| Logs.Log1Update | diffs.py:87-89 | The delta passes through and is appended to the log. Its contract is carried by Logs.Log1Appends. |
| Logs.Log1Appends | diffs.py:87-89 | Replaying updates on a log passes every delta through unchanged and appends them all to the log, in order. |
| Logs.Log1History | diffs.py:82-89 | After `compute(x)` and any updates, the outputs are exactly the deltas and the log is `x` followed by them. |
| Logs.Log1Incremental | diffs.py:82-89 | For any way of applying a delta, `Log1` is incremental for the identity. Its invariant is that the log replays to the current input. |
| Logs.ParallelAsWrittenResetsLog | diffs.py:47-48 | For two `Log1` stages after `compute(1, 2)` and `update(3, 4)`, the second log as written is `[4]`; the corrected update gives `[2, 4]`. |
| Logs.ParallelAsWrittenNotIncremental | diffs.py:47-48 | As written, the second log no longer replays to the patched input `2 + 4`. The corrected update's log does. |
| FilterLog.Filter | diffs.py:55-58 | The result holds exactly the entries satisfying the predicate, with their multiplicities, and is no longer than the log. |
| FilterLog.FilterAppend | diffs.py:55-58 | Filtering distributes over appending: the kept entries come in log order. |
| FilterLog.FilterLogStage | diffs.py:52-58 | The stateless stage whose `compute` and `update` both filter. Its contract is carried by FilterLog.AppendConsistent and FilterLog.FilterLogIncremental. |
| FilterLog.AppendConsistent | diffs.py:52-58 | Filtering a log after entries are appended equals the earlier output followed by what `update` returns for the new entries. |
| FilterLog.FilterLogIncremental | diffs.py:52-58 | `FilterLog` is incremental for the filter, with appended entries as the deltas of both logs. |
| Sum.Slot | diffs.py:68-69 | A Python index in range names a position in the list, counting from the end when negative. |
| Sum.Compute | diffs.py:62-64 | The total of the entries, keeping the entries as the state. Sum.Update's contract states that the state and the total stay in step through every update. |
| Sum.Update | diffs.py:65-70 | Fails exactly when some edit's index is out of range (`IndexError`). Otherwise the entries become the reference edited list, and the old total plus the returned difference is the new total. |
| Sum.EditedIsLastWrite | diffs.py:67-69 | With repeated indices, each position ends with its last edit's value, and positions no edit names keep their values. |
| Sum.TotalSet | diffs.py:68 | Setting one entry moves the total by the new value minus the old one. |
| PushGraph.Visit | diffs.py:99-107 | The visited set only grows, and contains the visited node. |
| PushGraph.VisitAll | diffs.py:109 | After visiting a list of nodes, every one of them has been visited. |
| PushGraph.Order | diffs.py:95-109 | The order the graph builds: the depth-first post-order over the rule keys, in the dict's order. Its contract is carried by PushGraph.OrderIsPermutation and PushGraph.OrderTopological. |
| PushGraph.OrderIsPermutation | diffs.py:95-109 | The order lists every node with a rule exactly once, and nothing else. |
| PushGraph.OrderTopological | diffs.py:95-109 | In an acyclic graph, every derived dependency of a node comes before it in the order. |
| PushGraph.OrderReadsEarlier | diffs.py:95-116 | No node reads the result of itself or of a node that runs after it. |
| PushGraph.Args | diffs.py:116 | Looking up the dependencies' results fails (a `KeyError`) exactly when one is missing. Otherwise it lists their results in dependency order. |
| PushGraph.ComputeFrom | diffs.py:113-116 | The results keep every input and add exactly the nodes of the order, each with a state. |
| PushGraph.UpdateFrom | diffs.py:122-125 | The deltas keep every input delta and add every node of the order. The set of stages with a state is unchanged. |
| PushGraph.ComputeFromFails | diffs.py:113-116 | Running a node list fails exactly when some node reads something that is neither an input nor produced earlier in the list. |
| PushGraph.Compute | diffs.py:111-117 | `compute` over the whole order, starting from the inputs. Its contract is carried by PushGraph.ComputeCorrect and GraphLaws.ComputeConsistent. |
| PushGraph.Update | diffs.py:121-126 | `update` over the whole order, starting from the input deltas. It requires a state for every stage, i.e. a prior `compute`. Its contract is carried by PushGraph.UpdateCorrect and PushGraph.UpdateIsFrozenCompute. |
| PushGraph.ComputeCorrect | diffs.py:111-117 | `compute` fails exactly when a derived node reads a source missing from the inputs. Otherwise every derived node holds its stage's `compute` of its dependencies' final results, with the resulting state, and source inputs pass through unchanged. |
| PushGraph.UpdateIsFrozenCompute | diffs.py:119-126 | `update` is exactly `compute` on the graph whose stages are the updates frozen in their current states. |
| PushGraph.UpdateCorrect | diffs.py:121-126 | `update` fails exactly when a derived node reads a source with no delta. Otherwise every derived node holds its stage's `update`, from its previous state, of its dependencies' final deltas; source deltas pass through; and the same stages keep states. |
| GraphLaws.ComputeConsistent | diffs.py:111-117 | With incremental stages, `compute` leaves every derived node's output equal to its from-scratch function of its dependencies' outputs, with a state the node's invariant ties to them. |
| GraphLaws.UpdateConsistent | diffs.py:121-126 | From such a consistent graph, the old outputs patched with the deltas `update` returns, together with the new states, are again consistent. |
| GraphLaws.ConsistentUnique | diffs.py:92-117 | In an acyclic graph, two consistent output maps that agree on the sources agree on every derived node. |
| GraphLaws.GraphIncremental | diffs.py:92-126 | A graph of incremental stages is incremental. After `compute`, `update` succeeds exactly when every source read has a delta. The returned deltas, applied to the outputs, equal the outputs of a fresh `compute` on the patched inputs. |
| Deltas.NewValues | deps-compute-update.py:84-89 | The named deltas that carry a new value, mapped to that value; unchanged names are absent. |
| Deltas.AnyNewIff | deps-compute-update.py:84-88 | Some named delta is new exactly when the new values are not empty. |
| Deltas.ApplyNamed | deps-compute-update.py:84-89 | The named deltas applied in their order. Its contract is carried by Deltas.ApplyNamedValues. |
| Deltas.ApplyNamedValues | deps-compute-update.py:84-89 | Applying named deltas overrides exactly the names with a new value. Existing names keep their order, and names not seen before come after them. |
| Rerun.ApplyPositional | deps-compute-update.py:78-83 | Fails (`IndexError`) exactly when a new delta's position is past the end of the arguments. Otherwise every position with a new delta takes its value and the rest keep theirs. |
| Rerun.Compute | deps-compute-update.py:70-74 | Remembers the arguments and calls the function. Rerun.UpdateExact states that every update leaves the state and result a fresh `compute` on the patched arguments would give. |
| Rerun.Update | deps-compute-update.py:76-90 | The corrected update. Its contract is carried by Rerun.UpdateExact. |
| Rerun.UpdateExact | deps-compute-update.py:76-90 | The corrected update patches the arguments. Its `New` reply, applied to the old result, is the function's result on the patched arguments, which is what a fresh `compute` would return and keep. It replies "unchanged" exactly when no delta was new. |
| Rerun.UpdateAsWritten | deps-compute-update.py:76-90 | As written, the update fails (`IndexError`) exactly when a new positional delta is past the end of the arguments. Otherwise it patches the arguments as the corrected update does. The reply is "unchanged" exactly when no delta was new, and never `New`. Otherwise it is the bare result of the function on the argument values followed by the argument names, with no keyword argument. |
| Rerun.UpdateAsWrittenDropsNames | deps-compute-update.py:90 | For a function counting its keyword arguments, `compute` with one name gives 1. After a new value for that name, the as-written update gives a bare 0, while the corrected one gives `New(1)`. |
| DiffsFrom.WriteAll | deps-compute-update.py:120-123 | Writing the new values of named deltas fails exactly when one of them is for a node with a rule. |
| DiffsFrom.WriteDeltas | deps-compute-update.py:120-123 | The writes of every new value in a dictionary of deltas, in its order. Its contract is carried by DiffsFrom.WriteDeltasCorrect. |
| DiffsFrom.WriteDeltasCorrect | deps-compute-update.py:119-123 | The sources after the writes are the old sources overridden by the new values, and coherence of the table is kept. |
| DiffsFrom.Update | deps-compute-update.py:119-125 | The reply is always `New`, whether or not anything changed. |
| DiffsFrom.Compute | deps-compute-update.py:114-117 | Writes every named input, then reads the target. Its contract is carried by DiffsFrom.ComputeCorrect. |
| DiffsFrom.ComputeCorrect | deps-compute-update.py:114-117 | Fails exactly when an input names a derived node or the target cannot be evaluated from the resulting sources. Otherwise it returns the target's from-scratch value on those sources and keeps the table coherent. |
| DiffsFrom.UpdateCorrect | deps-compute-update.py:119-125 | The same for `update`: only the new deltas are written, and the reply carries the target's from-scratch value. |
| DepsFrom.Init | deps-compute-update.py:147-150 | Nothing buffered, nothing computed. Its contract is carried by Adapters.GraphInit and Adapters.RerunInit. |
| DepsFrom.Write | deps-compute-update.py:152-153 | A write buffers the plain value before the first read and `New(value)` afterwards. The stage's state and previous output are unchanged. |
| DepsFrom.ReplyDelta | deps-compute-update.py:162-166 | An update reply that is a delta is taken as itself. A bare output is taken as `None`, as a `New`, or as neither, by the stage's classification of its values. |
| DepsFrom.Read | deps-compute-update.py:155-169 | The first read succeeds exactly when `compute` on the buffered values does, and returns its output. A later read succeeds exactly when `update` on the buffered deltas succeeds with a reply seen as `None` or `New`. It returns the previous output for `None` and the new value for `New`, including a bare output that is `None` or a `New` instance. Any other bare reply fails the assertion. After a successful read, every buffered name is marked unchanged, in the same order, and the output becomes the previous one. |
| Adapters.GraphInit | deps-compute-update.py:147-150 | A fresh adapter over a coherent Make-like table stands for the table's sources. |
| Adapters.GraphWrite | deps-compute-update.py:152-153 | Writing a source through the adapter makes it stand for the sources with that value set. |
| Adapters.GraphRead | deps-compute-update.py:155-169 | Reading through `DepsFrom(DiffsFrom(graph))` succeeds exactly when the target can be evaluated from the sources it stands for. Its value is then that evaluation, and the adapter still stands for the same sources. |
| Adapters.RerunInit | deps-compute-update.py:147-150 | A fresh adapter over a rerunner stands for no named values. |
| Adapters.RerunWrite | deps-compute-update.py:152-153 | Writing a name sets it in the named values the adapter stands for. |
| Adapters.RerunRead | deps-compute-update.py:155-169 | With the corrected rerunner, every read succeeds and returns the function applied to the named values written so far. |
| Adapters.RerunReadAsWrittenFails | deps-compute-update.py:161-166 | With the rerunner as written, a read after a write following the first read gets the function's bare result. It fails the `New` assertion exactly when that result is neither `None` nor a `New`. When the result is `None`, the read silently returns the previous output. |
| Adapters.RerunScenario | deps-compute-update.py:152-169 | Write `x = 1` and read: both rerunners give `f(x=1)`. Write `x = 2` and read: the corrected one gives `f(x=2)`. The one as written fails when `f`'s results are neither `None` nor `New`. |

## Left out

- Tracing `print` calls (deps.py:57, 68) are left out: they have no effect on state.
- Usage examples and the demo graphs (deps.py:100-134, diffs.py:129-163) are left out. The commented-out `DiffPusher` in diffs.py is left out too.
- The interface classes (deps.py:8-33, diffs.py:4-9, deps-compute-update.py:44-63) are declarations only. Their contracts appear as `Stages.Incremental` and the Make-like reference semantics.
- `List` in deps.py:48 is never imported in the file. The model reads it as a list of integers.
- Dynamic typing is left out. The `isinstance` assertions (diffs.py:13; deps-compute-update.py:80, 86, 122) hold by construction of the datatypes. The one dynamic test that matters, how `DepsFrom.read` sees a bare update output (deps-compute-update.py:162-165), is a classification function each stage supplies.
- Cycles in a dependency graph are left out. The source would recurse forever, so every operation that needs acyclicity takes a ghost `rank` instead.
- Sum.Compute, Sum.Update: the entries are unbounded integers. The Python `Sum` is untyped, and with floating-point entries the old total plus the difference equals the new total only up to rounding, which the model does not cover.
- Python's failure part-way through an operation is left out. A `Sum.update` edit, a `Rerunner` position, a `DiffsFrom` write or a `DepsFrom` read that raises after earlier mutations returns `Err` and no new state. The partial mutation is not modelled.
- Aliasing is left out. The same stage object appearing twice in a `Graph` or a combinator is not modelled: each occurrence has its own state. `Sum` keeps the caller's list (diffs.py:63) and edits it in place (diffs.py:69), so a caller, or a `Graph` whose results share that list (diffs.py:113), sees the edits. The model's `Sum.Update` returns a new list instead.
- Combinators.PipelineCompute: the first stage takes a single input, not Python's variadic `*inputs`. Later stages get the previous result itself, as in the source, where line 18 unpacks the one-element list. Only the pipeline's final output is a one-element list.
- Combinators.ForkCompute: `f` takes a single input for the same reason.
- Combinators.AllIncremental, GraphLaws.StagesIncremental: all stages of a pipeline or graph share one state, value and delta type, and one way `p` of applying a delta. A Python pipeline can mix stage kinds, such as a `FilterLog` feeding a `Sum`. Such a pipeline is covered by taking a tagged union for the value, delta and state types, with `p` dispatching on the tag. The model does not spell that encoding out.
- `Log` (diffs.py:73-80) is `Log1` over the tuple of all arguments, so `Logs` covers both with one element type.
- Rerun.Update, Adapters.RerunDiffs: keyword arguments are passed to the function as a map. The adapters use no positional arguments, because `DepsFrom` passes only named ones.
- DepsFrom.Read: the key given to `read` is ignored, as in the source, so the model takes none.
- Calling `update` before `compute`, which the source forbids by comment only, cannot happen in the model. A graph's `update` requires a state for every stage, and `DepsFrom` chooses between the two by its own flag.

## Findings

| source | as written | input that shows it | evidently intended | confidence | as-written member | corrected member |
|---|---|---|---|---|---|---|
| diffs.py:48 | `Parallel.update` calls `self.g.compute(delta2)`, resetting `g`'s state from a delta and returning an output where a delta is due | Two `Log1` stages: `compute(1, 2)` then `update(3, 4)` leaves the second log `[4]` instead of `[2, 4]` | `self.g.update(delta2)` | high; not executed | Logs.ParallelAsWrittenResetsLog | Combinators.ParallelUpdateExact |
| deps-compute-update.py:90 | `self.f(*self.inputs, *self.named_inputs)` spreads the keyword dictionary positionally, so the function gets the names as extra positional arguments and no keyword argument | `f` counting its keyword arguments, computed with `x=1`, then `update(x=New(2))`: returns 0 instead of 1 | `self.f(*self.inputs, **self.named_inputs)` | high; not executed | Rerun.UpdateAsWrittenDropsNames | Rerun.UpdateExact |
| deps-compute-update.py:90 | The rerun result is returned bare, but dep-like deltas must be `None` or `New`; `DepsFrom.read` asserts `New` at line 165 | `DepsFrom(Rerunner(f))`: write `x=1`, read, write `x=2`, read — the second read fails the assertion for any `f` whose result is neither `None` nor a `New` | `New(self.f(...))` | high; not executed | Adapters.RerunReadAsWrittenFails | Adapters.RerunRead |

=== FILE: adapters.dfy ===
/**
 * The adapters of deps-compute-update.py put together.  `DepsFrom` over
 * `DiffsFrom` of a Make-like graph gives back a dependency store whose
 * every read is the target's from-scratch value on everything written so
 * far.  `DepsFrom` over a `Rerunner` should give a store whose every read
 * is the function on the latest written values; that holds with the
 * corrected rerunner.  With the rerunner as written, a read after the
 * first one that follows a write gets the function's bare result; it fails
 * the `New` assertion unless the stage's classification sees that result
 * as `None` (the previous output is returned) or as a `New`.
 */
module Adapters {
  import opened Wrappers
  import opened Dicts
  import opened Deltas
  import M = Makelike
  import DF = DiffsFrom
  import D = DepsFrom
  import RR = Rerun

  // ---------- DepsFrom over DiffsFrom ----------

  /**
   * The graph with output `target` as a stage with named inputs.  Its
   * update always replies `New`, so bare outputs are never classified.
   */
  ghost function GraphDiffs<N, V>(g: M.Graph<N, V>, rank: N -> nat, target: N): D.Diffs<M.States<N, V>, N, V, V, M.Error>
    requires M.Ranked(g, rank)
  {
    D.Diffs((st, d) => DF.Compute(g, rank, target, st, d), (st, ds) => DF.Update(g, rank, target, st, ds), v => None)
  }

  /**
   * The adapter stands for the source values `src`: the graph is coherent,
   * and its sources overridden by the buffered writes are `src`, none of
   * them a derived node.
   */
  ghost predicate TracksGraph<N, V>(g: M.Graph<N, V>, a: D.Adapter<M.States<N, V>, N, V, V>, src: map<N, V>) {
    && M.Coherent(g, a.state)
    && (forall k :: k in src ==> k !in g.rules)
    && match a
       case Unstarted(st, raw) => src == M.Sources(g, st) + raw.items
       case Started(st, pending, _) => src == M.Sources(g, st) + NewValues(pending.items)
  }

  /** A fresh adapter over a coherent graph stands for the graph's sources. */
  lemma GraphInit<N(!new), V>(g: M.Graph<N, V>, st: M.States<N, V>)
    requires M.Coherent(g, st)
    ensures TracksGraph(g, D.Init(st), M.Sources(g, st))
  {
  }

  /** A write of a source adds its value to what the adapter stands for. */
  lemma GraphWrite<N(!new), V>(g: M.Graph<N, V>, a: D.Adapter<M.States<N, V>, N, V, V>, src: map<N, V>, k: N, v: V)
    requires TracksGraph(g, a, src) && k !in g.rules
    ensures TracksGraph(g, D.Write(a, k, v), src[k := v])
  {
    var a' := D.Write(a, k, v);
    match a
    case Unstarted(st, raw) =>
      MergeSet(M.Sources(g, st), raw.items, k, v);
    case Started(st, pending, _) =>
      NewValuesSet(pending.items, k, v);
      MergeSet(M.Sources(g, st), NewValues(pending.items), k, v);
  }

  /**
   * A read through the adapter succeeds exactly when the target has a
   * value from scratch on the sources the adapter stands for, returns that
   * value, and leaves an adapter that stands for the same sources.
   */
  lemma GraphRead<N(!new), V>(g: M.Graph<N, V>, rank: N -> nat, target: N, a: D.Adapter<M.States<N, V>, N, V, V>, src: map<N, V>)
    requires M.Ranked(g, rank) && TracksGraph(g, a, src)
    ensures D.Read(GraphDiffs(g, rank, target), a).Ok? <==> M.Eval(g, rank, src, target).Some?
    ensures D.Read(GraphDiffs(g, rank, target), a).Ok? ==>
      var (v, a') := D.Read(GraphDiffs(g, rank, target), a).value;
      && M.Eval(g, rank, src, target) == Some(v)
      && TracksGraph(g, a', src)
  {
    if a.Unstarted? {
      GraphFirstRead(g, rank, target, a, src);
    } else {
      GraphLaterRead(g, rank, target, a, src);
    }
  }

  lemma GraphFirstRead<N(!new), V>(g: M.Graph<N, V>, rank: N -> nat, target: N, a: D.Adapter<M.States<N, V>, N, V, V>, src: map<N, V>)
    requires M.Ranked(g, rank) && TracksGraph(g, a, src) && a.Unstarted?
    ensures D.Read(GraphDiffs(g, rank, target), a).Ok? <==> M.Eval(g, rank, src, target).Some?
    ensures D.Read(GraphDiffs(g, rank, target), a).Ok? ==>
      var (v, a') := D.Read(GraphDiffs(g, rank, target), a).value;
      && M.Eval(g, rank, src, target) == Some(v)
      && TracksGraph(g, a', src)
  {
    var diffs := GraphDiffs(g, rank, target);
    DF.ComputeCorrect(g, rank, target, a.state, a.raw);
    assert diffs.compute(a.state, a.raw) == DF.Compute(g, rank, target, a.state, a.raw);
    if D.Read(diffs, a).Ok? {
      var a' := D.Read(diffs, a).value.1;
      NewValuesNone(a'.pending.items);
      assert M.Sources(g, a'.state) + map[] == M.Sources(g, a'.state);
    }
  }

  lemma GraphLaterRead<N(!new), V>(g: M.Graph<N, V>, rank: N -> nat, target: N, a: D.Adapter<M.States<N, V>, N, V, V>, src: map<N, V>)
    requires M.Ranked(g, rank) && TracksGraph(g, a, src) && a.Started?
    ensures D.Read(GraphDiffs(g, rank, target), a).Ok? <==> M.Eval(g, rank, src, target).Some?
    ensures D.Read(GraphDiffs(g, rank, target), a).Ok? ==>
      var (v, a') := D.Read(GraphDiffs(g, rank, target), a).value;
      && M.Eval(g, rank, src, target) == Some(v)
      && TracksGraph(g, a', src)
  {
    var diffs := GraphDiffs(g, rank, target);
    DF.UpdateCorrect(g, rank, target, a.state, a.pending);
    assert diffs.update(a.state, a.pending) == DF.Update(g, rank, target, a.state, a.pending);
    if D.Read(diffs, a).Ok? {
      var a' := D.Read(diffs, a).value.1;
      NewValuesNone(a'.pending.items);
      assert M.Sources(g, a'.state) + map[] == M.Sources(g, a'.state);
    }
  }

  // ---------- DepsFrom over a Rerunner ----------

  /**
   * The rerunner of `rr` as a stage with named inputs only.  Its update
   * never replies bare, so how a bare output would be classified does not
   * matter.
   */
  function RerunDiffs<K, V, R>(rr: RR.Rerunner<K, V, R>): D.Diffs<RR.RerunState<K, V>, K, V, R, RR.Error> {
    D.Diffs((s, d) => Ok(RR.Compute(rr, [], d)), (s, ds) => RR.Update(rr, s, [], ds), v => None)
  }

  /**
   * The same with the rerunner's update as written, which replies with the
   * function's bare result; `asDelta` says which results are Python's
   * `None` or an instance of `New`.
   */
  function RerunDiffsAsWritten<K(!new), V, R>(rr: RR.Rerunner<K, V, R>, asDelta: R -> Option<Delta<R>>): D.Diffs<RR.RerunState<K, V>, K, V, R, RR.Error> {
    D.Diffs((s, d) => Ok(RR.Compute(rr, [], d)), (s, ds) => RR.UpdateAsWritten(rr, s, [], ds), asDelta)
  }

  /**
   * The adapter stands for the named values `vals`: before the first read
   * they are the buffer; after it, the rerunner's remembered arguments
   * overridden by the buffered new values, and the previous output is the
   * function on the remembered arguments.
   */
  ghost predicate TracksRerun<K, V, R>(rr: RR.Rerunner<K, V, R>, a: D.Adapter<RR.RerunState<K, V>, K, V, R>, vals: map<K, V>) {
    match a
    case Unstarted(_, raw) => raw.items == vals
    case Started(s, pending, prev) =>
      && s.inputs == []
      && prev == RR.Run(rr, s)
      && s.named.items + NewValues(pending.items) == vals
  }

  lemma RerunInit<K, V, R>(rr: RR.Rerunner<K, V, R>, s: RR.RerunState<K, V>)
    ensures TracksRerun(rr, D.Init(s), map[])
  {
  }

  lemma RerunWrite<K(!new), V, R>(rr: RR.Rerunner<K, V, R>, a: D.Adapter<RR.RerunState<K, V>, K, V, R>, vals: map<K, V>, k: K, v: V)
    requires TracksRerun(rr, a, vals)
    ensures TracksRerun(rr, D.Write(a, k, v), vals[k := v])
  {
    match a
    case Unstarted(_, _) =>
    case Started(s, pending, _) =>
      NewValuesSet(pending.items, k, v);
      MergeSet(s.named.items, NewValues(pending.items), k, v);
  }

  /**
   * Through the corrected rerunner every read succeeds and returns the
   * function on the latest written values, passed as keywords.
   */
  lemma RerunRead<K(!new), V, R>(rr: RR.Rerunner<K, V, R>, a: D.Adapter<RR.RerunState<K, V>, K, V, R>, vals: map<K, V>)
    requires TracksRerun(rr, a, vals)
    ensures D.Read(RerunDiffs(rr), a).Ok?
    ensures var (out, a') := D.Read(RerunDiffs(rr), a).value;
      && out == rr.f([], vals)
      && TracksRerun(rr, a', vals)
  {
    if a.Unstarted? {
      RerunFirstRead(rr, a, vals);
    } else {
      RerunLaterRead(rr, a, vals);
    }
  }

  lemma RerunFirstRead<K(!new), V, R>(rr: RR.Rerunner<K, V, R>, a: D.Adapter<RR.RerunState<K, V>, K, V, R>, vals: map<K, V>)
    requires TracksRerun(rr, a, vals) && a.Unstarted?
    ensures D.Read(RerunDiffs(rr), a).Ok?
    ensures var (out, a') := D.Read(RerunDiffs(rr), a).value;
      && out == rr.f([], vals)
      && TracksRerun(rr, a', vals)
  {
    var diffs := RerunDiffs(rr);
    assert RR.Vals<K, V>([]) == [];
    assert diffs.compute(a.state, a.raw) == Ok(RR.Compute(rr, [], a.raw));
    var a' := D.Read(diffs, a).value.1;
    NewValuesNone(a'.pending.items);
    assert a'.state.named.items + map[] == a'.state.named.items;
  }

  lemma RerunLaterRead<K(!new), V, R>(rr: RR.Rerunner<K, V, R>, a: D.Adapter<RR.RerunState<K, V>, K, V, R>, vals: map<K, V>)
    requires TracksRerun(rr, a, vals) && a.Started?
    ensures D.Read(RerunDiffs(rr), a).Ok?
    ensures var (out, a') := D.Read(RerunDiffs(rr), a).value;
      && out == rr.f([], vals)
      && TracksRerun(rr, a', vals)
  {
    var diffs := RerunDiffs(rr);
    assert RR.Vals<K, V>([]) == [];
    assert diffs.update(a.state, a.pending) == RR.Update(rr, a.state, [], a.pending);
    RR.UpdateExact(rr, a.state, [], a.pending);
    var a' := D.Read(diffs, a).value.1;
    NewValuesNone(a'.pending.items);
    assert a'.state.named.items + map[] == a'.state.named.items;
  }

  /**
   * Through the rerunner as written, a read after a write gets the
   * function's bare result where the adapter expects a dep-like delta.  It
   * fails the assertion exactly when that result is neither `None` nor a
   * `New`; when it is `None` the read returns the previous output.
   */
  lemma RerunReadAsWrittenFails<K(!new), V, R>(rr: RR.Rerunner<K, V, R>, asDelta: R -> Option<Delta<R>>,
                                               a: D.Adapter<RR.RerunState<K, V>, K, V, R>)
    requires a.Started? && AnyNew(a.pending)
    ensures RR.UpdateAsWritten(rr, a.state, [], a.pending).Ok? && RR.UpdateAsWritten(rr, a.state, [], a.pending).value.0.Bare?
    ensures D.Read(RerunDiffsAsWritten(rr, asDelta), a) == Err(D.NotNew) <==>
      asDelta(RR.UpdateAsWritten(rr, a.state, [], a.pending).value.0.value).None?
    ensures asDelta(RR.UpdateAsWritten(rr, a.state, [], a.pending).value.0.value) == Some(Unchanged) ==>
      D.Read(RerunDiffsAsWritten(rr, asDelta), a).Ok? && D.Read(RerunDiffsAsWritten(rr, asDelta), a).value.0 == a.prev
  {
    var diffs := RerunDiffsAsWritten(rr, asDelta);
    assert diffs.update(a.state, a.pending) == RR.UpdateAsWritten(rr, a.state, [], a.pending);
  }

  /**
   * The whole story for one name: write `x`, read, write `x` again, read.
   * With the corrected rerunner the reads return the function on each
   * value; as written the first read agrees and the second fails for a
   * function whose results are neither `None` nor `New`.
   */
  lemma RerunScenario<R>(rr: RR.Rerunner<string, int, R>)
    ensures var a0 := D.Write(D.Init(RR.RerunState([], Empty())), "x", 1);
      && D.Read(RerunDiffs(rr), a0).Ok?
      && D.Read(RerunDiffs(rr), a0).value.0 == rr.f([], map["x" := 1])
      && D.Read(RerunDiffsAsWritten(rr, (x: R) => None), a0) == D.Read(RerunDiffs(rr), a0)
      && var a1 := D.Write(D.Read(RerunDiffs(rr), a0).value.1, "x", 2);
      && D.Read(RerunDiffs(rr), a1).Ok?
      && D.Read(RerunDiffs(rr), a1).value.0 == rr.f([], map["x" := 2])
      && D.Read(RerunDiffsAsWritten(rr, (x: R) => None), a1) == Err(D.NotNew)
  {
    var a := D.Init<RR.RerunState<string, int>, string, int, R>(RR.RerunState([], Empty()));
    RerunInit(rr, RR.RerunState([], Empty()));
    RerunWrite(rr, a, map[], "x", 1);
    var a0 := D.Write(a, "x", 1);
    assert map[]["x" := 1] == map["x" := 1];
    RerunRead(rr, a0, map["x" := 1]);
    var a0' := D.Read(RerunDiffs(rr), a0).value.1;
    RerunWrite(rr, a0', map["x" := 1], "x", 2);
    assert map["x" := 1]["x" := 2] == map["x" := 2];
    var a1 := D.Write(a0', "x", 2);
    RerunRead(rr, a1, map["x" := 2]);
    assert a1.pending.keys[0] == "x" && a1.pending.items["x"] == New(2);
    RerunReadAsWrittenFails(rr, (x: R) => None, a1);
  }
}

=== FILE: combinators.dfy ===
/**
 * The combinators of diffs.py: `Pipeline` (lines 11-24), `Fork` (26-39)
 * and `Parallel` (41-48).  Each composite keeps the states of its parts;
 * its laws follow from the parts' `Incremental` laws.
 */
module Combinators {
  import opened Stages

  // ---------- Pipeline ----------

  /**
   * diffs.py:16-19: the first stage gets the input and every later stage
   * the previous stage's result (line 18 unpacks the one-element list it
   * was wrapped in); only the pipeline's own output is a one-element list,
   * holding the last result (the input itself when the pipeline is empty).
   * Returns the output and the stages' states, in order.
   */
  function PipelineCompute<S, V, D>(stages: seq<Stage<S, V, V, D, D>>, x: V): (r: (seq<V>, seq<S>))
    ensures |r.0| == 1 && |r.1| == |stages|
    ensures |stages| == 0 ==> r.0 == [x]
    ensures |stages| > 0 ==> r.1[0] == stages[0].compute(x).1
    decreases |stages|
  {
    if |stages| == 0 then ([x], [])
    else
      var (y, s) := stages[0].compute(x);
      var (out, ss) := PipelineCompute(stages[1..], y);
      (out, [s] + ss)
  }

  /** diffs.py:21-24: the same for deltas, each stage updated in its own state. */
  function PipelineUpdate<S, V, D>(stages: seq<Stage<S, V, V, D, D>>, ss: seq<S>, d: D): (r: (seq<D>, seq<S>))
    requires |ss| == |stages|
    ensures |r.0| == 1 && |r.1| == |stages|
    ensures |stages| == 0 ==> r.0 == [d]
    ensures |stages| > 0 ==> r.1[0] == stages[0].update(ss[0], d).1
    decreases |stages|
  {
    if |stages| == 0 then ([d], [])
    else
      var (e, s) := stages[0].update(ss[0], d);
      var (out, rest) := PipelineUpdate(stages[1..], ss[1..], e);
      (out, [s] + rest)
  }

  /** The denotations `dens` applied to `x` in order. */
  function Chain<V>(dens: seq<V -> V>, x: V): V
    decreases |dens|
  {
    if |dens| == 0 then x else Chain(dens[1..], dens[0](x))
  }

  /** Every stage is incremental for its denotation and invariant, with one delta type for all. */
  ghost predicate AllIncremental<S(!new), V(!new), D(!new)>(stages: seq<Stage<S, V, V, D, D>>, dens: seq<V -> V>,
                                                           invs: seq<(S, V) -> bool>, p: (V, D) -> V) {
    && |dens| == |stages| && |invs| == |stages|
    && forall k :: 0 <= k < |stages| ==> Incremental(stages[k], dens[k], invs[k], p, p)
  }

  /** Each state satisfies its stage's invariant for the input that stage sees when the pipeline gets `x`. */
  ghost predicate PipelineInv<S, V>(dens: seq<V -> V>, invs: seq<(S, V) -> bool>, ss: seq<S>, x: V)
    requires |dens| == |invs|
    decreases |dens|
  {
    && |ss| == |dens|
    && (|ss| > 0 ==> invs[0](ss[0], x) && PipelineInv(dens[1..], invs[1..], ss[1..], dens[0](x)))
  }

  lemma AllIncrementalTail<S(!new), V(!new), D(!new)>(stages: seq<Stage<S, V, V, D, D>>, dens: seq<V -> V>,
                                                     invs: seq<(S, V) -> bool>, p: (V, D) -> V)
    requires AllIncremental(stages, dens, invs, p) && |stages| > 0
    ensures Incremental(stages[0], dens[0], invs[0], p, p)
    ensures AllIncremental(stages[1..], dens[1..], invs[1..], p)
  {
    assert forall k :: 0 <= k < |stages| - 1 ==> stages[1..][k] == stages[k + 1] && dens[1..][k] == dens[k + 1] && invs[1..][k] == invs[k + 1];
  }

  /** A pipeline of incremental stages computes the chained denotations, in states that satisfy the invariant. */
  lemma {:induction false} PipelineComputeExact<S(!new), V(!new), D(!new)>(stages: seq<Stage<S, V, V, D, D>>, dens: seq<V -> V>,
                                                                         invs: seq<(S, V) -> bool>, p: (V, D) -> V, x: V)
    requires AllIncremental(stages, dens, invs, p)
    ensures PipelineCompute(stages, x).0 == [Chain(dens, x)]
    ensures PipelineInv(dens, invs, PipelineCompute(stages, x).1, x)
    decreases |stages|
  {
    if |stages| > 0 {
      AllIncrementalTail(stages, dens, invs, p);
      assert ComputesAs(stages[0], dens[0], invs[0], x);
      var (y, s) := stages[0].compute(x);
      PipelineComputeExact(stages[1..], dens[1..], invs[1..], p, y);
      assert PipelineCompute(stages, x).1[1..] == PipelineCompute(stages[1..], y).1;
    }
  }

  /**
   * A pipeline of incremental stages is incremental: the returned delta
   * carries the old chained output to the chained output of the patched
   * input, and the invariant moves along.
   */
  lemma {:induction false} PipelineUpdateExact<S(!new), V(!new), D(!new)>(stages: seq<Stage<S, V, V, D, D>>, dens: seq<V -> V>,
                                                                        invs: seq<(S, V) -> bool>, p: (V, D) -> V,
                                                                        ss: seq<S>, x: V, d: D)
    requires AllIncremental(stages, dens, invs, p) && PipelineInv(dens, invs, ss, x)
    ensures p(Chain(dens, x), PipelineUpdate(stages, ss, d).0[0]) == Chain(dens, p(x, d))
    ensures PipelineInv(dens, invs, PipelineUpdate(stages, ss, d).1, p(x, d))
    decreases |stages|
  {
    if |stages| > 0 {
      AllIncrementalTail(stages, dens, invs, p);
      assert UpdatesAs(stages[0], dens[0], invs[0], p, p, ss[0], x, d);
      var (e, s) := stages[0].update(ss[0], d);
      PipelineUpdateExact(stages[1..], dens[1..], invs[1..], p, ss[1..], dens[0](x), e);
      assert PipelineUpdate(stages, ss, d).1[1..] == PipelineUpdate(stages[1..], ss[1..], e).1;
    }
  }

  // ---------- Fork ----------

  /** diffs.py:34-36: `f` computes once, and `g` and `h` both compute from its output. */
  function ForkCompute<S1, S2, S3, A, B, C, E, DA, DB, DC, DE>(f: Stage<S1, A, B, DA, DB>, g: Stage<S2, B, C, DB, DC>,
                                                            h: Stage<S3, B, E, DB, DE>, a: A): (r: ((C, E), (S1, S2, S3)))
  {
    var (b, sf) := f.compute(a);
    var (c, sg) := g.compute(b);
    var (e, sh) := h.compute(b);
    ((c, e), (sf, sg, sh))
  }

  /** diffs.py:37-39: `f` updates once, and `g` and `h` both update from its output delta. */
  function ForkUpdate<S1, S2, S3, A, B, C, E, DA, DB, DC, DE>(f: Stage<S1, A, B, DA, DB>, g: Stage<S2, B, C, DB, DC>,
                                                           h: Stage<S3, B, E, DB, DE>, s: (S1, S2, S3), da: DA): (r: ((DC, DE), (S1, S2, S3)))
  {
    var (db, sf) := f.update(s.0, da);
    var (dc, sg) := g.update(s.1, db);
    var (de, sh) := h.update(s.2, db);
    ((dc, de), (sf, sg, sh))
  }

  /** The fork's invariant: each part's state is tied to the input that part sees. */
  ghost predicate ForkInv<S1, S2, S3, A, B>(df: A -> B, invf: (S1, A) -> bool, invg: (S2, B) -> bool, invh: (S3, B) -> bool,
                                            s: (S1, S2, S3), a: A) {
    invf(s.0, a) && invg(s.1, df(a)) && invh(s.2, df(a))
  }

  /** A fork of incremental stages computes both composed denotations from one run of `f`. */
  lemma ForkComputeExact<S1(!new), S2(!new), S3(!new), A(!new), B(!new), C, E, DA(!new), DB(!new), DC, DE>(
      f: Stage<S1, A, B, DA, DB>, g: Stage<S2, B, C, DB, DC>, h: Stage<S3, B, E, DB, DE>,
      df: A -> B, dg: B -> C, dh: B -> E, invf: (S1, A) -> bool, invg: (S2, B) -> bool, invh: (S3, B) -> bool,
      pa: (A, DA) -> A, pb: (B, DB) -> B, pc: (C, DC) -> C, pe: (E, DE) -> E, a: A)
    requires Incremental(f, df, invf, pa, pb) && Incremental(g, dg, invg, pb, pc) && Incremental(h, dh, invh, pb, pe)
    ensures ForkCompute(f, g, h, a).0 == (dg(df(a)), dh(df(a)))
    ensures ForkInv(df, invf, invg, invh, ForkCompute(f, g, h, a).1, a)
  {
    assert ComputesAs(f, df, invf, a);
    assert ComputesAs(g, dg, invg, df(a));
    assert ComputesAs(h, dh, invh, df(a));
  }

  /** A fork of incremental stages is incremental, with deltas applied to both outputs. */
  lemma ForkUpdateExact<S1(!new), S2(!new), S3(!new), A(!new), B(!new), C, E, DA(!new), DB(!new), DC, DE>(
      f: Stage<S1, A, B, DA, DB>, g: Stage<S2, B, C, DB, DC>, h: Stage<S3, B, E, DB, DE>,
      df: A -> B, dg: B -> C, dh: B -> E, invf: (S1, A) -> bool, invg: (S2, B) -> bool, invh: (S3, B) -> bool,
      pa: (A, DA) -> A, pb: (B, DB) -> B, pc: (C, DC) -> C, pe: (E, DE) -> E, s: (S1, S2, S3), a: A, da: DA)
    requires Incremental(f, df, invf, pa, pb) && Incremental(g, dg, invg, pb, pc) && Incremental(h, dh, invh, pb, pe)
    requires ForkInv(df, invf, invg, invh, s, a)
    ensures var (d, s') := ForkUpdate(f, g, h, s, da);
      && pc(dg(df(a)), d.0) == dg(df(pa(a, da)))
      && pe(dh(df(a)), d.1) == dh(df(pa(a, da)))
      && ForkInv(df, invf, invg, invh, s', pa(a, da))
  {
    assert UpdatesAs(f, df, invf, pa, pb, s.0, a, da);
    var db := f.update(s.0, da).0;
    assert UpdatesAs(g, dg, invg, pb, pc, s.1, df(a), db);
    assert UpdatesAs(h, dh, invh, pb, pe, s.2, df(a), db);
  }

  // ---------- Parallel ----------

  /** diffs.py:45-46: `f` and `g` compute side by side on their own inputs. */
  function ParallelCompute<S1, S2, A1, A2, B1, B2, DA1, DA2, DB1, DB2>(f: Stage<S1, A1, B1, DA1, DB1>, g: Stage<S2, A2, B2, DA2, DB2>,
                                                                     a1: A1, a2: A2): (r: ((B1, B2), (S1, S2)))
  {
    var (b1, s1) := f.compute(a1);
    var (b2, s2) := g.compute(a2);
    ((b1, b2), (s1, s2))
  }

  /**
   * diffs.py:47-48 as written: the second delta is fed to `g.compute`, so
   * the second output is a fresh output rather than a delta and `g`'s state
   * is rebuilt from the delta alone.  The delta must then have `g`'s input
   * type.
   */
  function ParallelUpdateAsWritten<S1, S2, A1, A2, B1, B2, DA1, DB1, DB2>(f: Stage<S1, A1, B1, DA1, DB1>, g: Stage<S2, A2, B2, A2, DB2>,
                                                                         s: (S1, S2), d1: DA1, d2: A2): (r: ((DB1, B2), (S1, S2)))
  {
    var (e1, s1) := f.update(s.0, d1);
    var (e2, s2) := g.compute(d2);
    ((e1, e2), (s1, s2))
  }

  /** The evidently intended `Parallel.update`: both parts update in their own states. */
  function ParallelUpdate<S1, S2, A1, A2, B1, B2, DA1, DA2, DB1, DB2>(f: Stage<S1, A1, B1, DA1, DB1>, g: Stage<S2, A2, B2, DA2, DB2>,
                                                                    s: (S1, S2), d1: DA1, d2: DA2): (r: ((DB1, DB2), (S1, S2)))
  {
    var (e1, s1) := f.update(s.0, d1);
    var (e2, s2) := g.update(s.1, d2);
    ((e1, e2), (s1, s2))
  }

  /** Side by side, incremental stages compute both denotations. */
  lemma ParallelComputeExact<S1(!new), S2(!new), A1(!new), A2(!new), B1, B2, DA1(!new), DA2(!new), DB1, DB2>(
      f: Stage<S1, A1, B1, DA1, DB1>, g: Stage<S2, A2, B2, DA2, DB2>, d1: A1 -> B1, d2: A2 -> B2,
      inv1: (S1, A1) -> bool, inv2: (S2, A2) -> bool,
      pa1: (A1, DA1) -> A1, pb1: (B1, DB1) -> B1, pa2: (A2, DA2) -> A2, pb2: (B2, DB2) -> B2, a1: A1, a2: A2)
    requires Incremental(f, d1, inv1, pa1, pb1) && Incremental(g, d2, inv2, pa2, pb2)
    ensures var (b, s) := ParallelCompute(f, g, a1, a2); b == (d1(a1), d2(a2)) && inv1(s.0, a1) && inv2(s.1, a2)
  {
    assert ComputesAs(f, d1, inv1, a1);
    assert ComputesAs(g, d2, inv2, a2);
  }

  /** Side by side, the corrected update of incremental stages is incremental. */
  lemma ParallelUpdateExact<S1(!new), S2(!new), A1(!new), A2(!new), B1, B2, DA1(!new), DA2(!new), DB1, DB2>(
      f: Stage<S1, A1, B1, DA1, DB1>, g: Stage<S2, A2, B2, DA2, DB2>, d1: A1 -> B1, d2: A2 -> B2,
      inv1: (S1, A1) -> bool, inv2: (S2, A2) -> bool,
      pa1: (A1, DA1) -> A1, pb1: (B1, DB1) -> B1, pa2: (A2, DA2) -> A2, pb2: (B2, DB2) -> B2,
      s: (S1, S2), a1: A1, a2: A2, e1: DA1, e2: DA2)
    requires Incremental(f, d1, inv1, pa1, pb1) && Incremental(g, d2, inv2, pa2, pb2)
    requires inv1(s.0, a1) && inv2(s.1, a2)
    ensures var (d, s') := ParallelUpdate(f, g, s, e1, e2);
      && pb1(d1(a1), d.0) == d1(pa1(a1, e1)) && pb2(d2(a2), d.1) == d2(pa2(a2, e2))
      && inv1(s'.0, pa1(a1, e1)) && inv2(s'.1, pa2(a2, e2))
  {
    assert UpdatesAs(f, d1, inv1, pa1, pb1, s.0, a1, e1);
    assert UpdatesAs(g, d2, inv2, pa2, pb2, s.1, a2, e2);
  }
}

=== FILE: deltas.dfy ===
/**
 * The "dep-like" deltas of deps-compute-update.py (lines 48-49, 60): a
 * delta either says nothing changed (Python's `None`) or carries the new
 * value whole (`New(value)`).  A stage's reply to `update` is such a delta;
 * `Bare` is a reply that is a plain value, which some stages return where a
 * delta is expected.
 */
module Deltas {
  import opened Dicts

  datatype Delta<V> = Unchanged | New(value: V)

  datatype Reply<R> = Delta(delta: Delta<R>) | Bare(value: R)

  /** The value after delta `d`: the old one unless `d` carries a new one. */
  function Patch<V>(prev: V, d: Delta<V>): (r: V)
    ensures d.New? ==> r == d.value
    ensures d.Unchanged? ==> r == prev
  {
    match d
    case Unchanged => prev
    case New(v) => v
  }

  /** The new values that the named deltas `ds` carry, by name. */
  function NewValues<K, V>(ds: map<K, Delta<V>>): (r: map<K, V>)
    ensures r.Keys <= ds.Keys
    ensures forall k :: k in ds ==> (k in r <==> ds[k].New?)
    ensures forall k :: k in r ==> r[k] == ds[k].value
  {
    map k | k in ds && ds[k].New? :: ds[k].value
  }

  /** Every value of `d` as a new value, under the same names in the same order. */
  function AllNew<K, V>(d: Dict<K, V>): (r: Dict<K, Delta<V>>)
    ensures r.keys == d.keys && r.items.Keys == d.items.Keys
    ensures forall k :: k in r.items ==> r.items[k] == New(d.items[k])
  {
    Table(d.keys, map k | k in d.items :: New(d.items[k]))
  }

  lemma AllNewValues<K(!new), V>(d: Dict<K, V>)
    ensures NewValues(AllNew(d).items) == d.items
  {
  }

  /** A new value recorded under `k` is the new value for `k`. */
  lemma NewValuesSet<K(!new), V>(ds: map<K, Delta<V>>, k: K, v: V)
    ensures NewValues(ds[k := New(v)]) == NewValues(ds)[k := v]
  {
  }

  /** Deltas that all say nothing changed carry no new value. */
  lemma NewValuesNone<K(!new), V>(ds: map<K, Delta<V>>)
    requires forall k :: k in ds ==> ds[k] == Unchanged
    ensures NewValues(ds) == map[]
  {
  }

  /** Overriding with `b` and then setting `k` is overriding with `b` with `k` set. */
  lemma MergeSet<K(!new), V>(a: map<K, V>, b: map<K, V>, k: K, v: V)
    ensures a + b[k := v] == (a + b)[k := v]
  {
  }

  /** Some named delta carries a new value. */
  predicate AnyNew<K, V>(ds: Dict<K, Delta<V>>) {
    exists i :: 0 <= i < |ds.keys| && ds.keys[i] in ds.items && ds.items[ds.keys[i]].New?
  }

  lemma AnyNewIff<K, V>(ds: Dict<K, Delta<V>>)
    ensures AnyNew(ds) <==> NewValues(ds.items) != map[]
  {
    if NewValues(ds.items) != map[] {
      var k :| k in NewValues(ds.items);
      Listed(ds);
      var i :| 0 <= i < |ds.keys| && ds.keys[i] == k;
    }
  }

  /**
   * deps-compute-update.py:84-89: `named[k] = x.value` for every named
   * delta, in its order, that carries a new value; an existing name keeps
   * its place, a new one goes last.
   */
  function ApplyNamed<K, V>(named: Dict<K, V>, ds: Dict<K, Delta<V>>): (r: Dict<K, V>)
  {
    Listed(ds);
    ApplyKeys(named, ds.keys, ds.items)
  }

  /** The deltas of `m` for the names `ks`, applied in that order. */
  function ApplyKeys<K, V>(named: Dict<K, V>, ks: seq<K>, m: map<K, Delta<V>>): (r: Dict<K, V>)
    requires forall j :: 0 <= j < |ks| ==> ks[j] in m
    decreases |ks|
  {
    if |ks| == 0 then named
    else
      match m[ks[0]]
      case Unchanged => ApplyKeys(named, ks[1..], m)
      case New(v) => ApplyKeys(Set(named, ks[0], v), ks[1..], m)
  }

  /**
   * Name `x` after the deltas for `ks`: it has the value of its delta if
   * it is one of `ks` and its delta is new, and otherwise what it had; the
   * names there were keep their places.
   */
  lemma {:induction false} ApplyKeysAt<K, V>(named: Dict<K, V>, ks: seq<K>, m: map<K, Delta<V>>, x: K)
    requires forall j :: 0 <= j < |ks| ==> ks[j] in m
    ensures var r := ApplyKeys(named, ks, m);
      && (x in r.items <==> x in named.items || (x in ks && m[x].New?))
      && (x in ks && m[x].New? ==> r.items[x] == m[x].value)
      && (!(x in ks && m[x].New?) && x in named.items ==> r.items[x] == named.items[x])
    decreases |ks|
  {
    if |ks| > 0 {
      assert x in ks <==> x == ks[0] || x in ks[1..] by {
        assert ks == [ks[0]] + ks[1..];
      }
      match m[ks[0]]
      case Unchanged =>
        ApplyKeysAt(named, ks[1..], m, x);
      case New(v) =>
        ApplyKeysAt(Set(named, ks[0], v), ks[1..], m, x);
    }
  }

  lemma {:induction false} ApplyKeysPrefix<K, V>(named: Dict<K, V>, ks: seq<K>, m: map<K, Delta<V>>)
    requires forall j :: 0 <= j < |ks| ==> ks[j] in m
    ensures |named.keys| <= |ApplyKeys(named, ks, m).keys|
    ensures ApplyKeys(named, ks, m).keys[..|named.keys|] == named.keys
    decreases |ks|
  {
    if |ks| > 0 {
      match m[ks[0]]
      case Unchanged =>
        ApplyKeysPrefix(named, ks[1..], m);
      case New(v) =>
        var named' := Set(named, ks[0], v);
        ApplyKeysPrefix(named', ks[1..], m);
        var r := ApplyKeys(named', ks[1..], m);
        assert r.keys[..|named.keys|] == r.keys[..|named'.keys|][..|named.keys|];
        assert named'.keys[..|named.keys|] == named.keys;
    }
  }

  /**
   * The whole of `ApplyNamed`: exactly the names whose delta is new get its
   * value, every other name keeps its own, and the old names stay first, in
   * their order.
   */
  lemma ApplyNamedValues<K(!new), V>(named: Dict<K, V>, ds: Dict<K, Delta<V>>)
    ensures ApplyNamed(named, ds).items == named.items + NewValues(ds.items)
    ensures |named.keys| <= |ApplyNamed(named, ds).keys|
    ensures ApplyNamed(named, ds).keys[..|named.keys|] == named.keys
  {
    Listed(ds);
    var r := ApplyNamed(named, ds);
    var want := named.items + NewValues(ds.items);
    forall x
      ensures x in r.items <==> x in want
      ensures x in r.items ==> r.items[x] == want[x]
    {
      ApplyKeysAt(named, ds.keys, ds.items, x);
    }
    assert r.items == want;
    ApplyKeysPrefix(named, ds.keys, ds.items);
  }
}

=== FILE: depsfrom.dfy ===
/**
 * `DepsFrom` of deps-compute-update.py (lines 127-169): a stage with named
 * inputs, dep-like deltas and one output, seen as a Make-like dependency
 * store.  Writes are buffered: before the first read as plain values,
 * afterwards as `New` deltas.  The first read runs `compute` on the buffer,
 * every later read runs `update` on it; after a read every buffered entry
 * is marked unchanged.  The key given to `read` is ignored: the stage has
 * one output.
 */
module DepsFrom {
  import opened Wrappers
  import opened Dicts
  import opened Deltas

  /**
   * A stage with named inputs, as the adapter sees it: `compute` from a
   * starting state and `update` from the state `compute` or `update` left,
   * either of which may fail with the stage's own error.  `asDelta` is how
   * the dynamic tests of lines 162-165 see a bare output: `Some(Unchanged)`
   * for Python's `None`, `Some(New(v))` for an instance of `New`, `None`
   * for any other value.
   */
  datatype Diffs<!S, !K, !V, !R, !E> = Diffs(
    compute: (S, Dict<K, V>) -> Result<(R, S), E>,
    update: (S, Dict<K, Delta<V>>) -> Result<(Reply<R>, S), E>,
    asDelta: R -> Option<Delta<R>>)

  /**
   * The adapter: the stage's state and the buffered writes, plain values
   * before the first read; after it, deltas and the last output.
   */
  datatype Adapter<S, K, V, R> =
    | Unstarted(state: S, raw: Dict<K, V>)
    | Started(state: S, pending: Dict<K, Delta<V>>, prev: R)

  /** The stage's own failure, or the assertion at line 165: an update reply that is neither `None` nor `New`. */
  datatype Error<E> = Failed(cause: E) | NotNew

  /** deps-compute-update.py:147-150: nothing buffered, nothing computed. */
  function Init<S, K, V, R>(s: S): Adapter<S, K, V, R> {
    Unstarted(s, Empty())
  }

  /** deps-compute-update.py:152-153: buffer the value, as a `New` delta once started. */
  function Write<S, K, V, R>(a: Adapter<S, K, V, R>, k: K, v: V): (r: Adapter<S, K, V, R>)
    ensures r.state == a.state && r.Started? == a.Started?
    ensures r.Unstarted? ==> r.raw.items == a.raw.items[k := v]
    ensures r.Started? ==> r.pending.items == a.pending.items[k := New(v)] && r.prev == a.prev
  {
    match a
    case Unstarted(s, raw) => Unstarted(s, Set(raw, k, v))
    case Started(s, pending, prev) => Started(s, Set(pending, k, New(v)), prev)
  }

  /** Every buffered entry is a delta that says nothing changed. */
  ghost predicate Clean<S, K, V, R>(a: Adapter<S, K, V, R>) {
    a.Started? && forall k :: k in a.pending.items ==> a.pending.items[k] == Unchanged
  }

  /**
   * The update reply as the tests of lines 162-165 see it: a delta as
   * itself, a bare output as `asDelta` classifies it.
   */
  function ReplyDelta<S, K, V, R, E>(diffs: Diffs<S, K, V, R, E>, reply: Reply<R>): (r: Option<Delta<R>>)
    ensures reply.Delta? ==> r == Some(reply.delta)
  {
    match reply
    case Delta(d) => Some(d)
    case Bare(v) => diffs.asDelta(v)
  }

  /**
   * deps-compute-update.py:155-169: the first read computes on the
   * buffered values; a later one updates with the buffered deltas and keeps
   * the previous output if the reply is unchanged.  Either way the returned
   * output becomes the previous one and the buffer is marked clean, with
   * the same names in the same order.
   */
  function Read<S, K, V, R, E>(diffs: Diffs<S, K, V, R, E>, a: Adapter<S, K, V, R>): (r: Result<(R, Adapter<S, K, V, R>), Error<E>>)
    ensures r.Ok? ==> Clean(r.value.1) && r.value.1.prev == r.value.0
    ensures r.Ok? && a.Unstarted? ==> r.value.1.pending.keys == a.raw.keys
    ensures r.Ok? && a.Started? ==> r.value.1.pending.keys == a.pending.keys
    ensures a.Unstarted? ==> (r.Ok? <==> diffs.compute(a.state, a.raw).Ok?)
    ensures r.Ok? && a.Unstarted? ==> diffs.compute(a.state, a.raw) == Ok((r.value.0, r.value.1.state))
    ensures a.Started? ==> (r.Ok? <==> diffs.update(a.state, a.pending).Ok? && ReplyDelta(diffs, diffs.update(a.state, a.pending).value.0).Some?)
    ensures r.Ok? && a.Started? ==>
      && diffs.update(a.state, a.pending).Ok?
      && var (reply, s) := diffs.update(a.state, a.pending).value;
      && r.value.0 == Patch(a.prev, ReplyDelta(diffs, reply).value) && r.value.1.state == s
    ensures a.Started? && diffs.update(a.state, a.pending).Ok? && ReplyDelta(diffs, diffs.update(a.state, a.pending).value.0).None? ==> r == Err(NotNew)
  {
    match a
    case Unstarted(s, raw) =>
      (match diffs.compute(s, raw)
       case Err(e) => Err(Failed(e))
       case Ok((out, s')) => Ok((out, Started(s', Fill(raw, Unchanged), out))))
    case Started(s, pending, prev) =>
      match diffs.update(s, pending)
      case Err(e) => Err(Failed(e))
      case Ok((reply, s')) =>
        match ReplyDelta(diffs, reply)
        case None => Err(NotNew)
        case Some(Unchanged) => Ok((prev, Started(s', Fill(pending, Unchanged), prev)))
        case Some(New(out)) => Ok((out, Started(s', Fill(pending, Unchanged), out)))
  }
}

=== FILE: dicts.dfy ===
/**
 * Insertion-ordered dictionaries, the model of a Python `dict` wherever
 * its iteration order is observable: the keys in the order they were first
 * inserted, and the map from keys to values.
 */
module Dicts {

  datatype Table<K, V> = Table(keys: seq<K>, items: map<K, V>)

  /** The representation invariant: every key listed once, and exactly the mapped keys. */
  ghost predicate Valid<K, V>(d: Table<K, V>) {
    && (forall i, j :: 0 <= i < j < |d.keys| ==> d.keys[i] != d.keys[j])
    && d.items.Keys == set k | k in d.keys
  }

  type Dict<K, V> = d: Table<K, V> | Valid(d) witness Table([], map[])

  /** A key is listed exactly when it is mapped. */
  lemma Listed<K, V>(d: Dict<K, V>)
    ensures forall j :: 0 <= j < |d.keys| ==> d.keys[j] in d.items
    ensures forall k :: k in d.items ==> k in d.keys
  {
    assert d.items.Keys == set k | k in d.keys;
  }

  function Empty<K, V>(): (r: Dict<K, V>)
    ensures |r.keys| == 0 && r.items == map[]
  {
    Table([], map[])
  }

  /**
   * `d[k] = v`: an existing key keeps its position, a new key goes last.
   */
  function Set<K, V>(d: Dict<K, V>, k: K, v: V): (r: Dict<K, V>)
    ensures r.items == d.items[k := v]
    ensures k in d.items ==> r.keys == d.keys
    ensures k !in d.items ==> r.keys == d.keys + [k]
  {
    if k in d.items then Table(d.keys, d.items[k := v])
    else
      var r := Table(d.keys + [k], d.items[k := v]);
      assert r.items.Keys == set x | x in r.keys by {
        assert d.items.Keys == set x | x in d.keys;
      }
      r
  }

  /** `{k: c for k in d}`: the same keys in the same order, every value replaced by `c`. */
  function Fill<K, V, W>(d: Dict<K, V>, c: W): (r: Dict<K, W>)
    ensures r.keys == d.keys
    ensures r.items.Keys == d.items.Keys
    ensures forall k :: k in r.items ==> r.items[k] == c
  {
    Table(d.keys, map k | k in d.items :: c)
  }
}

=== FILE: diffsfrom.dfy ===
/**
 * `DiffsFrom` of deps-compute-update.py (lines 107-125): a Make-like
 * dependency graph seen as a stage with dep-like deltas.  Its inputs are
 * named sources of the graph and its output is one target node; `compute`
 * writes every input and reads the target, and `update` writes the inputs
 * whose delta is new and reads the target again, reporting the value as
 * new every time, since the graph cannot say whether it changed.
 *
 * The graph is the functional engine of the Makelike module: its table of
 * states is the stage's state.
 */
module DiffsFrom {
  import opened Wrappers
  import opened Dicts
  import opened Deltas
  import M = Makelike

  /** The new values of `m`, under the names `ks` and in that order, written into the graph. */
  function WriteAll<N, V>(g: M.Graph<N, V>, st: M.States<N, V>, ks: seq<N>, m: map<N, Delta<V>>): (r: Result<M.States<N, V>, M.Error>)
    requires forall j :: 0 <= j < |ks| ==> ks[j] in m
    ensures r.Err? <==> exists j :: 0 <= j < |ks| && m[ks[j]].New? && ks[j] in g.rules
    decreases |ks|
  {
    if |ks| == 0 then Ok(st)
    else
      var rest := WriteAll(g, st, ks[1..], m);
      assert rest.Err? <==> exists j :: 1 <= j < |ks| && m[ks[j]].New? && ks[j] in g.rules by {
        assert forall j :: 1 <= j < |ks| ==> ks[j] == ks[1..][j - 1];
        if rest.Err? {
          var j :| 0 <= j < |ks[1..]| && m[ks[1..][j]].New? && ks[1..][j] in g.rules;
          assert ks[1..][j] == ks[j + 1];
        }
      }
      match m[ks[0]]
      case Unchanged => WriteAll(g, st, ks[1..], m)
      case New(v) =>
        match M.Write(g, st, ks[0], v)
        case Err(e) => Err(e)
        case Ok(st1) => WriteAll(g, st1, ks[1..], m)
  }

  /**
   * Source `x` after the writes: the value of its delta if it is one of
   * `ks` and its delta is new, and otherwise what it had; the writes keep
   * the table coherent.
   */
  lemma {:induction false} WriteAllAt<N, V>(g: M.Graph<N, V>, st: M.States<N, V>, ks: seq<N>, m: map<N, Delta<V>>, x: N)
    requires forall j :: 0 <= j < |ks| ==> ks[j] in m
    requires WriteAll(g, st, ks, m).Ok?
    ensures var src := M.Sources(g, WriteAll(g, st, ks, m).value);
      && (x in src <==> x in M.Sources(g, st) || (x in ks && m[x].New?))
      && (x in ks && m[x].New? ==> src[x] == m[x].value)
      && (!(x in ks && m[x].New?) && x in M.Sources(g, st) ==> src[x] == M.Sources(g, st)[x])
    decreases |ks|
  {
    if |ks| > 0 {
      assert x in ks <==> x == ks[0] || x in ks[1..] by {
        assert ks == [ks[0]] + ks[1..];
      }
      match m[ks[0]]
      case Unchanged =>
        WriteAllAt(g, st, ks[1..], m, x);
      case New(v) =>
        var st1 := M.Write(g, st, ks[0], v).value;
        WriteAllAt(g, st1, ks[1..], m, x);
    }
  }

  lemma {:induction false} WriteAllCoherent<N, V>(g: M.Graph<N, V>, st: M.States<N, V>, ks: seq<N>, m: map<N, Delta<V>>)
    requires forall j :: 0 <= j < |ks| ==> ks[j] in m
    requires M.Coherent(g, st) && WriteAll(g, st, ks, m).Ok?
    ensures M.Coherent(g, WriteAll(g, st, ks, m).value)
    decreases |ks|
  {
    if |ks| > 0 {
      match m[ks[0]]
      case Unchanged =>
        WriteAllCoherent(g, st, ks[1..], m);
      case New(v) =>
        M.WriteKeepsCoherent(g, st, ks[0], v);
        WriteAllCoherent(g, M.Write(g, st, ks[0], v).value, ks[1..], m);
    }
  }

  /** deps-compute-update.py:115-116 and 120-123: the new values of a dictionary of deltas written in its order. */
  function WriteDeltas<N, V>(g: M.Graph<N, V>, st: M.States<N, V>, ds: Dict<N, Delta<V>>): Result<M.States<N, V>, M.Error> {
    Listed(ds);
    WriteAll(g, st, ds.keys, ds.items)
  }

  /**
   * The writes of a whole dictionary of deltas fail exactly when one of
   * its new values is for a derived node; otherwise the sources become the
   * old ones overridden by the new values, and the table stays coherent.
   */
  lemma WriteDeltasCorrect<N(!new), V>(g: M.Graph<N, V>, st: M.States<N, V>, ds: Dict<N, Delta<V>>)
    ensures WriteDeltas(g, st, ds).Err? <==> exists k :: k in NewValues(ds.items) && k in g.rules
    ensures WriteDeltas(g, st, ds).Ok? ==>
      && M.Sources(g, WriteDeltas(g, st, ds).value) == M.Sources(g, st) + NewValues(ds.items)
      && (M.Coherent(g, st) ==> M.Coherent(g, WriteDeltas(g, st, ds).value))
  {
    Listed(ds);
    if WriteAll(g, st, ds.keys, ds.items).Err? {
      var j :| 0 <= j < |ds.keys| && ds.items[ds.keys[j]].New? && ds.keys[j] in g.rules;
      assert ds.keys[j] in NewValues(ds.items);
    } else {
      var src := M.Sources(g, WriteAll(g, st, ds.keys, ds.items).value);
      forall x
        ensures x in src <==> x in M.Sources(g, st) + NewValues(ds.items)
        ensures x in src ==> src[x] == (M.Sources(g, st) + NewValues(ds.items))[x]
      {
        WriteAllAt(g, st, ds.keys, ds.items, x);
      }
      if M.Coherent(g, st) {
        WriteAllCoherent(g, st, ds.keys, ds.items);
      }
    }
  }

  /** deps-compute-update.py:114-117: write every input into the graph, then read the target. */
  function Compute<N, V>(g: M.Graph<N, V>, ghost rank: N -> nat, target: N, st: M.States<N, V>, inputs: Dict<N, V>): Result<(V, M.States<N, V>), M.Error>
    requires M.Ranked(g, rank)
  {
    match WriteDeltas(g, st, AllNew(inputs))
    case Err(e) => Err(e)
    case Ok(st1) => M.Read(g, rank, st1, target)
  }

  /** deps-compute-update.py:119-125: write the inputs whose delta is new, then read the target and call it new. */
  function Update<N, V>(g: M.Graph<N, V>, ghost rank: N -> nat, target: N, st: M.States<N, V>, deltas: Dict<N, Delta<V>>): (r: Result<(Reply<V>, M.States<N, V>), M.Error>)
    requires M.Ranked(g, rank)
    ensures r.Ok? ==> r.value.0.Delta? && r.value.0.delta.New?
  {
    match WriteDeltas(g, st, deltas)
    case Err(e) => Err(e)
    case Ok(st1) =>
      match M.Read(g, rank, st1, target)
      case Err(e) => Err(e)
      case Ok((v, st2)) => Ok((Delta(New(v)), st2))
  }

  /**
   * From a coherent graph, `compute` fails exactly when an input names a
   * derived node or the target needs a source that has no value; otherwise
   * it returns the target's from-scratch value on the graph's sources
   * overridden by the inputs, and the graph keeps those sources, coherent.
   */
  lemma ComputeCorrect<N(!new), V>(g: M.Graph<N, V>, rank: N -> nat, target: N, st: M.States<N, V>, inputs: Dict<N, V>)
    requires M.Ranked(g, rank) && M.Coherent(g, st)
    ensures var src := M.Sources(g, st) + inputs.items;
      Compute(g, rank, target, st, inputs).Ok? <==>
        (forall k :: k in inputs.items ==> k !in g.rules) && M.Eval(g, rank, src, target).Some?
    ensures var src := M.Sources(g, st) + inputs.items;
      Compute(g, rank, target, st, inputs).Ok? ==>
        var (v, st') := Compute(g, rank, target, st, inputs).value;
        && M.Eval(g, rank, src, target) == Some(v)
        && M.Coherent(g, st') && M.Sources(g, st') == src
  {
    var news := AllNew(inputs);
    AllNewValues(inputs);
    WriteDeltasCorrect(g, st, news);
    if WriteDeltas(g, st, news).Ok? {
      var st1 := WriteDeltas(g, st, news).value;
      if M.Read(g, rank, st1, target).Ok? {
        M.ComputeKeepsSources(g, rank, st1, target);
      }
    }
  }

  /**
   * The same for `update`, with the new values of the deltas in place of
   * the inputs; the reply is always `New` of the target's value.
   */
  lemma UpdateCorrect<N(!new), V>(g: M.Graph<N, V>, rank: N -> nat, target: N, st: M.States<N, V>, deltas: Dict<N, Delta<V>>)
    requires M.Ranked(g, rank) && M.Coherent(g, st)
    ensures var src := M.Sources(g, st) + NewValues(deltas.items);
      Update(g, rank, target, st, deltas).Ok? <==>
        (forall k :: k in NewValues(deltas.items) ==> k !in g.rules) && M.Eval(g, rank, src, target).Some?
    ensures var src := M.Sources(g, st) + NewValues(deltas.items);
      Update(g, rank, target, st, deltas).Ok? ==>
        var (reply, st') := Update(g, rank, target, st, deltas).value;
        && Some(reply.delta.value) == M.Eval(g, rank, src, target)
        && M.Coherent(g, st') && M.Sources(g, st') == src
  {
    WriteDeltasCorrect(g, st, deltas);
    if WriteDeltas(g, st, deltas).Ok? {
      var st1 := WriteDeltas(g, st, deltas).value;
      if M.Read(g, rank, st1, target).Ok? {
        M.ComputeKeepsSources(g, rank, st1, target);
      }
    }
  }
}

=== FILE: filterlog.dfy ===
/**
 * `FilterLog` of diffs.py (lines 52-58): a stateless stage over
 * append-only logs that keeps the entries satisfying a predicate.  A delta
 * of a log is the list of entries appended to it, so `update` filters just
 * the new entries.
 */
module FilterLog {
  import opened Stages

  /**
   * diffs.py:56 and 58: the entries of `xs` that satisfy `p`, in order.
   * Every entry that satisfies `p` keeps its multiplicity and every other
   * entry is dropped.
   */
  function Filter<T>(p: T -> bool, xs: seq<T>): (r: seq<T>)
    ensures forall x :: x in r ==> x in xs
    ensures forall x :: x in xs ==> (x in r <==> p(x))
    ensures forall x :: x in xs ==> multiset(r)[x] == if p(x) then multiset(xs)[x] else 0
    ensures |r| <= |xs|
    decreases |xs|
  {
    if |xs| == 0 then []
    else
      assert xs == [xs[0]] + xs[1..];
      (if p(xs[0]) then [xs[0]] else []) + Filter(p, xs[1..])
  }

  /** Filtering distributes over concatenation: the order of the kept entries is the order of the log. */
  lemma {:induction false} FilterAppend<T>(p: T -> bool, xs: seq<T>, ys: seq<T>)
    ensures Filter(p, xs + ys) == Filter(p, xs) + Filter(p, ys)
    decreases |xs|
  {
    if |xs| == 0 {
      assert xs + ys == ys;
    } else {
      assert (xs + ys)[1..] == xs[1..] + ys;
      FilterAppend(p, xs[1..], ys);
    }
  }

  /** A log of one entry keeps it exactly when it satisfies the predicate. */
  lemma FilterSingle<T>(p: T -> bool, x: T)
    ensures Filter(p, [x]) == if p(x) then [x] else []
  {
    assert [x][1..] == [];
  }

  /** The stage: no state, and `compute` and `update` both filter. */
  function FilterLogStage<T>(p: T -> bool): Stage<(), seq<T>, seq<T>, seq<T>, seq<T>> {
    Stage(log => (Filter(p, log), ()), (s: (), entries) => (Filter(p, entries), ()))
  }

  /**
   * Append-only consistency: filtering the whole log after new entries
   * arrive equals the earlier output followed by what `update` returns for
   * the new entries.
   */
  lemma AppendConsistent<T>(p: T -> bool, past: seq<T>, added: seq<T>)
    ensures var st := FilterLogStage(p);
      st.compute(past + added).0 == st.compute(past).0 + st.update(st.compute(past).1, added).0
  {
    FilterAppend(p, past, added);
  }

  /** `FilterLog` is incremental for `Filter`, deltas of both logs being the appended entries. */
  lemma FilterLogIncremental<T(!new)>(p: T -> bool)
    ensures Incremental(FilterLogStage(p), (log: seq<T>) => Filter(p, log), (s: (), log: seq<T>) => true,
                        (log: seq<T>, d: seq<T>) => log + d, (log: seq<T>, d: seq<T>) => log + d)
  {
    var st := FilterLogStage(p);
    var den := (log: seq<T>) => Filter(p, log);
    var inv := (s: (), log: seq<T>) => true;
    var app := (log: seq<T>, d: seq<T>) => log + d;
    forall a: seq<T>
      ensures ComputesAs(st, den, inv, a)
    {
    }
    forall s: (), a: seq<T>, d: seq<T>
      ensures UpdatesAs(st, den, inv, app, app, s, a, d)
    {
      FilterAppend(p, a, d);
    }
  }
}

=== FILE: graphlaws.dfy ===
/**
 * The promise of the push-based `Graph` of diffs.py (lines 92-126): when
 * every stage is incremental, so is the graph.  Every derived node's stage
 * is exact against a from-scratch denotation `den(n)` and a state
 * invariant `inv(n)`, with deltas applied to values by `p` (and argument
 * lists patched position by position).  Then `compute` leaves the graph in
 * a state the invariant describes, `update` keeps it there, and the deltas
 * `update` returns, applied to the outputs, are the outputs a fresh
 * `compute` on the patched inputs would give.
 */
module GraphLaws {
  import opened Wrappers
  import opened Stages
  import opened PushGraph

  /** The argument list `a` with the deltas `ds` applied position by position. */
  function Zip<V, D>(p: (V, D) -> V, a: seq<V>, ds: seq<D>): (r: seq<V>)
    ensures |r| == |a|
    ensures forall i :: 0 <= i < |a| ==> r[i] == if i < |ds| then p(a[i], ds[i]) else a[i]
  {
    seq(|a|, i requires 0 <= i < |a| => if i < |ds| then p(a[i], ds[i]) else a[i])
  }

  function PatchArgs<V, D>(p: (V, D) -> V): (seq<V>, seq<D>) -> seq<V> {
    (a: seq<V>, ds: seq<D>) => Zip(p, a, ds)
  }

  /** Every value that has a delta, with the delta applied. */
  function PatchMap<N(!new), V, D>(p: (V, D) -> V, out: map<N, V>, ds: map<N, D>): (r: map<N, V>)
    ensures forall n :: n in r <==> n in out && n in ds
    ensures forall n :: n in r ==> r[n] == p(out[n], ds[n])
  {
    map n | n in out && n in ds :: p(out[n], ds[n])
  }

  /** Every stage of the network is incremental against its node's denotation and invariant. */
  ghost predicate StagesIncremental<N, S(!new), V(!new), D(!new)>(net: Network<N, S, V, D>, den: N -> (seq<V> -> V),
                                                          inv: N -> ((S, seq<V>) -> bool), p: (V, D) -> V) {
    forall n :: n in net.rules.items ==> Incremental(net.rules.items[n].stage, den(n), inv(n), PatchArgs(p), p)
  }

  /**
   * The outputs `out` and the states `st` of the derived nodes agree with
   * the denotations and the invariants, on the outputs of each node's
   * dependencies.
   */
  ghost predicate Consistent<N, S, V, D>(net: Network<N, S, V, D>, den: N -> (seq<V> -> V), inv: N -> ((S, seq<V>) -> bool),
                                         out: map<N, V>, st: map<N, S>) {
    forall n :: n in net.rules.items ==>
      && n in out && n in st
      && Args(out, net.rules.items[n].deps).Ok?
      && out[n] == den(n)(Args(out, net.rules.items[n].deps).value)
      && inv(n)(st[n], Args(out, net.rules.items[n].deps).value)
  }

  /** `compute` leaves the graph consistent. */
  lemma ComputeConsistent<N(!new), S(!new), V(!new), D(!new)>(net: Network<N, S, V, D>, rank: N -> nat,
                           den: N -> (seq<V> -> V), inv: N -> ((S, seq<V>) -> bool), p: (V, D) -> V, inputs: map<N, V>)
    requires Ranked(Shape(net), rank) && StagesIncremental(net, den, inv, p)
    requires Compute(net, inputs).Ok?
    ensures var (out, st) := Compute(net, inputs).value; Consistent(net, den, inv, out, st)
  {
    ComputeCorrect(net, rank, inputs);
    var (out, st) := Compute(net, inputs).value;
    forall n | n in net.rules.items
      ensures Args(out, net.rules.items[n].deps).Ok?
      ensures out[n] == den(n)(Args(out, net.rules.items[n].deps).value)
      ensures inv(n)(st[n], Args(out, net.rules.items[n].deps).value)
    {
      assert NodeSettled(net, n, out, st);
      assert ComputesAs(net.rules.items[n].stage, den(n), inv(n), Args(out, net.rules.items[n].deps).value);
    }
  }

  /** Patching the outputs of the dependencies patches the argument list. */
  lemma ArgsPatch<N(!new), V, D>(p: (V, D) -> V, out: map<N, V>, ds: map<N, D>, deps: seq<N>)
    requires Args(out, deps).Ok? && Args(ds, deps).Ok?
    ensures Args(PatchMap(p, out, ds), deps) == Ok(Zip(p, Args(out, deps).value, Args(ds, deps).value))
  {
    var patched := PatchMap(p, out, ds);
    assert forall j :: 0 <= j < |deps| ==> deps[j] in patched;
    assert Args(patched, deps).value == Zip(p, Args(out, deps).value, Args(ds, deps).value);
  }

  /**
   * From a consistent graph, `update` leaves a consistent graph: the old
   * outputs patched with the returned deltas, with the new states.
   */
  lemma UpdateConsistent<N(!new), S(!new), V(!new), D(!new)>(net: Network<N, S, V, D>, rank: N -> nat,
                           den: N -> (seq<V> -> V), inv: N -> ((S, seq<V>) -> bool), p: (V, D) -> V,
                           out: map<N, V>, st: map<N, S>, deltas: map<N, D>)
    requires Ranked(Shape(net), rank) && StagesIncremental(net, den, inv, p)
    requires Consistent(net, den, inv, out, st) && Update(net, deltas, st).Ok?
    ensures var (dout, st') := Update(net, deltas, st).value;
      Consistent(net, den, inv, PatchMap(p, out, dout), st')
  {
    UpdateCorrect(net, rank, deltas, st);
    var (dout, st') := Update(net, deltas, st).value;
    var out' := PatchMap(p, out, dout);
    forall n | n in net.rules.items
      ensures n in out' && n in st'
      ensures Args(out', net.rules.items[n].deps).Ok?
      ensures out'[n] == den(n)(Args(out', net.rules.items[n].deps).value)
      ensures inv(n)(st'[n], Args(out', net.rules.items[n].deps).value)
    {
      var rule := net.rules.items[n];
      assert NodeUpdated(net, st, n, dout, st');
      var a := Args(out, rule.deps).value;
      var da := Args(dout, rule.deps).value;
      assert UpdatesAs(rule.stage, den(n), inv(n), PatchArgs(p), p, st[n], a, da);
      ArgsPatch(p, out, dout, rule.deps);
      assert PatchArgs(p)(a, da) == Zip(p, a, da);
    }
  }

  /**
   * Two consistent output maps that agree on every source some node reads
   * agree on every derived node: the denotations fix the graph's outputs.
   */
  lemma {:induction false} ConsistentUnique<N, S, V, D>(net: Network<N, S, V, D>, rank: N -> nat,
                           den: N -> (seq<V> -> V), inv: N -> ((S, seq<V>) -> bool),
                           out1: map<N, V>, st1: map<N, S>, out2: map<N, V>, st2: map<N, S>, n: N)
    requires Ranked(Shape(net), rank)
    requires Consistent(net, den, inv, out1, st1) && Consistent(net, den, inv, out2, st2)
    requires forall m, j :: m in net.rules.items && 0 <= j < |net.rules.items[m].deps| && net.rules.items[m].deps[j] !in net.rules.items ==>
      out1[net.rules.items[m].deps[j]] == out2[net.rules.items[m].deps[j]]
    requires n in net.rules.items
    ensures out1[n] == out2[n]
    decreases rank(n)
  {
    var deps := net.rules.items[n].deps;
    forall j | 0 <= j < |deps|
      ensures out1[deps[j]] == out2[deps[j]]
    {
      if deps[j] in net.rules.items {
        assert Shape(net)[n][j] == deps[j];
        ConsistentUnique(net, rank, den, inv, out1, st1, out2, st2, deps[j]);
      }
    }
    assert Args(out1, deps).value == Args(out2, deps).value;
  }

  /**
   * The graph is incremental: after `compute` on `inputs` and `update` with
   * `deltas` (one for every source some node reads), the outputs patched
   * with the returned deltas are exactly the outputs of a fresh `compute`
   * on the inputs patched with the deltas.
   */
  lemma GraphIncremental<N(!new), S(!new), V(!new), D(!new)>(net: Network<N, S, V, D>, rank: N -> nat,
                           den: N -> (seq<V> -> V), inv: N -> ((S, seq<V>) -> bool), p: (V, D) -> V,
                           inputs: map<N, V>, deltas: map<N, D>)
    requires Ranked(Shape(net), rank) && StagesIncremental(net, den, inv, p)
    requires Compute(net, inputs).Ok?
    ensures net.rules.items.Keys <= Compute(net, inputs).value.1.Keys
    ensures Update(net, deltas, Compute(net, inputs).value.1).Ok? <==>
      forall m, j :: m in net.rules.items && 0 <= j < |net.rules.items[m].deps| && net.rules.items[m].deps[j] !in net.rules.items ==>
        net.rules.items[m].deps[j] in deltas
    ensures Update(net, deltas, Compute(net, inputs).value.1).Ok? ==>
      && Compute(net, PatchMap(p, inputs, deltas)).Ok?
      && var (out, st) := Compute(net, inputs).value;
      && var (dout, st') := Update(net, deltas, st).value;
      && var (out2, st2) := Compute(net, PatchMap(p, inputs, deltas)).value;
      && forall n :: n in net.rules.items ==> p(out[n], dout[n]) == out2[n]
  {
    ComputeCorrect(net, rank, inputs);
    var (out, st) := Compute(net, inputs).value;
    UpdateCorrect(net, rank, deltas, st);
    if Update(net, deltas, st).Ok? {
      var (dout, st') := Update(net, deltas, st).value;
      var patched := PatchMap(p, inputs, deltas);
      ComputeCorrect(net, rank, patched);
      ComputeConsistent(net, rank, den, inv, p, inputs);
      UpdateConsistent(net, rank, den, inv, p, out, st, deltas);
      ComputeConsistent(net, rank, den, inv, p, patched);
      var (out2, st2) := Compute(net, patched).value;
      var out' := PatchMap(p, out, dout);
      forall m, j | m in net.rules.items && 0 <= j < |net.rules.items[m].deps| && net.rules.items[m].deps[j] !in net.rules.items
        ensures out'[net.rules.items[m].deps[j]] == out2[net.rules.items[m].deps[j]]
      {
        var x := net.rules.items[m].deps[j];
        assert x in out && out[x] == inputs[x];
        assert x in dout && dout[x] == deltas[x];
        assert x in patched && out2[x] == patched[x];
      }
      forall n | n in net.rules.items
        ensures p(out[n], dout[n]) == out2[n]
      {
        ConsistentUnique(net, rank, den, inv, out', st', out2, st2, n);
      }
    }
  }
}

=== FILE: logs.dfy ===
/**
 * `Log1` and `Log` of diffs.py (lines 73-89): identity stages that keep
 * their history.  `compute` starts the history over with its input;
 * `update` appends its delta and passes it on.  `Log` is `Log1` whose
 * values are the tuples of all arguments, so `T` below stands for either.
 */
module Logs {
  import opened Stages
  import opened Combinators

  /** diffs.py:84-86 (and 75-77 for `Log`): the output is the input; the log is reset to it. */
  function Log1Compute<T>(x: T): (T, seq<T>) {
    (x, [x])
  }

  /** diffs.py:87-89 (and 78-80 for `Log`): the output delta is the delta; the log grows by it. */
  function Log1Update<T>(log: seq<T>, d: T): (T, seq<T>) {
    (d, log + [d])
  }

  function Log1<T>(): Stage<seq<T>, T, T, T, T> {
    Stage(x => Log1Compute(x), (log, d) => Log1Update(log, d))
  }

  /**
   * The whole history: after `compute` of `x` and the updates `ds`, the
   * outputs are exactly the deltas and the log is `x` followed by them.
   */
  lemma Log1History<T>(x: T, ds: seq<T>)
    ensures var (y, log) := Log1Compute(x); y == x && Replay(Log1(), log, ds) == (ds, [x] + ds)
  {
    Log1Appends([x], ds);
  }

  lemma {:induction false} Log1Appends<T>(log: seq<T>, ds: seq<T>)
    ensures Replay(Log1(), log, ds) == (ds, log + ds)
    decreases |ds|
  {
    if |ds| > 0 {
      assert Log1<T>().update(log, ds[0]) == (ds[0], log + [ds[0]]);
      Log1Appends(log + [ds[0]], ds[1..]);
      assert Replay(Log1(), log, ds) == ([ds[0]] + ds[1..], log + [ds[0]] + ds[1..]);
      assert log + [ds[0]] + ds[1..] == log + ds;
      assert [ds[0]] + ds[1..] == ds;
    } else {
      assert log + ds == log;
    }
  }

  /** The log replays to the current input: its first entry with every later entry applied as a delta. */
  ghost predicate Replays<T>(p: (T, T) -> T, log: seq<T>, a: T) {
    |log| > 0 && PatchAll(p, log[0], log[1..]) == a
  }

  /** For any way `p` of applying a delta, `Log1` is incremental for the identity, and its log replays. */
  lemma Log1Incremental<T(!new)>(p: (T, T) -> T)
    ensures Incremental(Log1(), x => x, (log, a) => Replays(p, log, a), p, p)
  {
    var den := (x: T) => x;
    var inv := (log, a) => Replays(p, log, a);
    var st := Log1<T>();
    forall a: T
      ensures ComputesAs(st, den, inv, a)
    {
      assert st.compute(a) == (a, [a]);
    }
    forall log: seq<T>, a: T, d: T
      ensures UpdatesAs(st, den, inv, p, p, log, a, d)
    {
      assert st.update(log, d) == (d, log + [d]);
      if Replays(p, log, a) {
        PatchAllSnoc(p, log[0], log[1..], d);
        assert (log + [d])[1..] == log[1..] + [d];
      }
    }
  }

  /**
   * The second delta of `Parallel.update` as written goes to `g.compute`:
   * with two `Log1` stages, after `compute(1, 2)` and `update(3, 4)` the
   * second log holds only the delta, where updating would have kept the
   * history.
   */
  lemma ParallelAsWrittenResetsLog()
    ensures var s := ParallelCompute(Log1<int>(), Log1<int>(), 1, 2).1;
      && ParallelUpdateAsWritten(Log1<int>(), Log1<int>(), s, 3, 4).1 == ([1, 3], [4])
      && ParallelUpdate(Log1<int>(), Log1<int>(), s, 3, 4).1 == ([1, 3], [2, 4])
  {
    assert Log1<int>().compute(1) == (1, [1]);
    assert Log1<int>().compute(2) == (2, [2]);
    assert Log1<int>().compute(4) == (4, [4]);
    assert Log1<int>().update([1], 3) == (3, [1] + [3]);
    assert Log1<int>().update([2], 4) == (4, [2] + [4]);
    assert [1] + [3] == [1, 3] && [2] + [4] == [2, 4];
  }

  /**
   * The as-written update breaks the invariant of `Log1` when deltas are
   * added: the second log no longer replays to the second input `2 + 4`.
   */
  lemma ParallelAsWrittenNotIncremental()
    ensures var s := ParallelCompute(Log1<int>(), Log1<int>(), 1, 2).1;
      && Replays((a: int, d: int) => a + d, s.1, 2)
      && !Replays((a: int, d: int) => a + d, ParallelUpdateAsWritten(Log1<int>(), Log1<int>(), s, 3, 4).1.1, 2 + 4)
      && Replays((a: int, d: int) => a + d, ParallelUpdate(Log1<int>(), Log1<int>(), s, 3, 4).1.1, 2 + 4)
  {
    var s := ParallelCompute(Log1<int>(), Log1<int>(), 1, 2).1;
    assert s.1 == [2];
    assert ParallelUpdateAsWritten(Log1<int>(), Log1<int>(), s, 3, 4).1.1 == [4];
    assert ParallelUpdate(Log1<int>(), Log1<int>(), s, 3, 4).1.1 == [2, 4];
    assert [2, 4][1..] == [4];
  }
}

=== FILE: makelike.dfy ===
/**
 * The pull-based, Make-like engine of deps.py.
 *
 * A graph maps every derived node to the ordered list of nodes it is built
 * from; a node without a rule is a source, written from outside.  The engine
 * keeps one `State` per node and rebuilds a derived node lazily, when it is
 * read, and only when the version of some dependency differs from the
 * version recorded at its last build.
 *
 * The Python object is replaced by functional state passing: every operation
 * takes the table of states and returns the new one.  The rule callbacks are
 * one uninterpreted function of the node and its dependencies' values.  The
 * source has no cycle check, so every operation that recurses asks for a
 * `rank` that strictly decreases along dependency edges; it is the
 * termination measure.
 */
module Makelike {
  import opened Wrappers

  /** deps.py:41-48: the value, its per-node version, and the dependency versions it was built from. */
  datatype State<V> = State(value: V, version: nat, depVersions: seq<nat>)

  /** The two ways the engine fails: the assertion of `write`, and the `KeyError` of an unwritten source. */
  datatype Error = InvalidWriteTarget | UnknownSource

  /** The dependency graph: the rules of derived nodes and the callback that builds them. */
  datatype Graph<!N, !V> = Graph(rules: map<N, seq<N>>, callback: (N, seq<V>) -> V)

  type States<N, V> = map<N, State<V>>

  /** `rank` strictly decreases from every derived node to each of its dependencies: the graph is acyclic. */
  ghost predicate Ranked<N, V>(g: Graph<N, V>, rank: N -> nat) {
    forall n, i :: n in g.rules && 0 <= i < |g.rules[n]| ==> rank(g.rules[n][i]) < rank(n)
  }

  /** Node `x` has the same entry (or the same absence) in both tables. */
  ghost predicate Unchanged<N, V>(st: States<N, V>, st': States<N, V>, x: N) {
    && (x in st <==> x in st')
    && (x in st ==> st'[x] == st[x])
  }

  /**
   * How the table may change under `compute`: no entry disappears, an entry
   * that changes belongs to a derived node and gets a strictly larger version,
   * and no source entry appears or changes.
   */
  ghost predicate Evolves<N, V>(g: Graph<N, V>, st: States<N, V>, st': States<N, V>) {
    && st.Keys <= st'.Keys
    && (forall x :: x in st ==> st'[x] == st[x] || (x in g.rules && st'[x].version > st[x].version))
    && (forall x :: x in st' && x !in g.rules ==> x in st)
  }

  lemma EvolvesTransitive<N, V>(g: Graph<N, V>, st: States<N, V>, st': States<N, V>, st'': States<N, V>)
    requires Evolves(g, st, st') && Evolves(g, st', st'')
    ensures Evolves(g, st, st'')
  {
  }

  function Versions<V>(ss: seq<State<V>>): (r: seq<nat>)
    ensures |r| == |ss|
    ensures forall i :: 0 <= i < |ss| ==> r[i] == ss[i].version
  {
    seq(|ss|, i requires 0 <= i < |ss| => ss[i].version)
  }

  function Values<V>(ss: seq<State<V>>): (r: seq<V>)
    ensures |r| == |ss|
    ensures forall i :: 0 <= i < |ss| ==> r[i] == ss[i].value
  {
    seq(|ss|, i requires 0 <= i < |ss| => ss[i].value)
  }

  /**
   * deps.py:87-88: some dependency's fresh version differs from the one
   * recorded, over the positions that `zip` pairs up.
   */
  predicate Stale<V>(deps: seq<State<V>>, recorded: seq<nat>) {
    exists i :: 0 <= i < |deps| && i < |recorded| && deps[i].version != recorded[i]
  }

  /**
   * deps.py:56-63: writing a source gives it version 0 the first time and
   * the previous version plus one afterwards; writing a derived node fails.
   */
  function Write<N, V>(g: Graph<N, V>, st: States<N, V>, n: N, v: V): (r: Result<States<N, V>, Error>)
    ensures r.Err? <==> n in g.rules
    ensures r.Ok? ==> n in r.value && r.value[n].value == v && r.value[n].depVersions == []
    ensures r.Ok? && n !in st ==> r.value[n].version == 0
    ensures r.Ok? && n in st ==> r.value[n].version == st[n].version + 1
    ensures r.Ok? ==> r.value.Keys == st.Keys + {n}
    ensures r.Ok? ==> forall x :: x in st && x != n ==> r.value[x] == st[x]
  {
    if n in g.rules then Err(InvalidWriteTarget)
    else Ok(st[n := State(v, if n in st then st[n].version + 1 else 0, [])])
  }

  /**
   * deps.py:72-97: brings `n` up to date and returns its state together with
   * the new table.  A source is returned as stored; a derived node first
   * brings its dependencies up to date, left to right, and is rebuilt when it
   * was never built or when it is `Stale`.
   */
  function Compute<N, V>(g: Graph<N, V>, ghost rank: N -> nat, st: States<N, V>, n: N): (r: Result<(State<V>, States<N, V>), Error>)
    requires Ranked(g, rank)
    ensures n !in g.rules ==> (r.Ok? <==> n in st)
    ensures n !in g.rules && r.Ok? ==> r.value == (st[n], st)
    ensures r.Ok? ==> n in r.value.1 && r.value.1[n] == r.value.0
    ensures r.Ok? ==> Evolves(g, st, r.value.1)
    decreases rank(n), 1, 0
  {
    if n !in g.rules then
      if n in st then Ok((st[n], st)) else Err(UnknownSource)
    else
      match ComputeDeps(g, rank, st, n, 0)
      case Err(e) => Err(e)
      case Ok((deps, st1)) =>
        if n !in st1 || Stale(deps, st1[n].depVersions) then
          var s := State(g.callback(n, Values(deps)), if n in st1 then st1[n].version + 1 else 0, Versions(deps));
          Ok((s, st1[n := s]))
        else
          Ok((st1[n], st1))
  }

  /** deps.py:81: the states of the dependencies of `n` from position `i` on, computed left to right. */
  function ComputeDeps<N, V>(g: Graph<N, V>, ghost rank: N -> nat, st: States<N, V>, n: N, i: nat): (r: Result<(seq<State<V>>, States<N, V>), Error>)
    requires Ranked(g, rank) && n in g.rules && i <= |g.rules[n]|
    ensures r.Ok? ==> |r.value.0| == |g.rules[n]| - i
    ensures r.Ok? ==> Evolves(g, st, r.value.1)
    decreases rank(n), 0, |g.rules[n]| - i
  {
    if i == |g.rules[n]| then Ok(([], st))
    else
      match Compute(g, rank, st, g.rules[n][i])
      case Err(e) => Err(e)
      case Ok((s, st1)) =>
        match ComputeDeps(g, rank, st1, n, i + 1)
        case Err(e) => Err(e)
        case Ok((ss, st2)) =>
          EvolvesTransitive(g, st, st1, st2);
          Ok(([s] + ss, st2))
  }

  /**
   * deps.py:67-69: the value of `n` after bringing it up to date.  It fails
   * exactly when the value needs a source that was never written, and on a
   * coherent table it is the from-scratch value of `n`.
   */
  function Read<N, V>(g: Graph<N, V>, ghost rank: N -> nat, st: States<N, V>, n: N): (r: Result<(V, States<N, V>), Error>)
    requires Ranked(g, rank)
    ensures r.Ok? <==> Eval(g, rank, Sources(g, st), n).Some?
    ensures Coherent(g, st) && r.Ok? ==> Eval(g, rank, Sources(g, st), n) == Some(r.value.0) && Coherent(g, r.value.1)
  {
    ComputeFailsIffUnwritten(g, rank, st, n);
    ComputeCorrect(g, rank, st, n);
    match Compute(g, rank, st, n)
    case Err(e) => Err(e)
    case Ok((s, st')) => Ok((s.value, st'))
  }

  /** One step of `ComputeDeps`: the `i`-th dependency, then the rest from the table it left. */
  lemma ComputeDepsStep<N, V>(g: Graph<N, V>, rank: N -> nat, st: States<N, V>, n: N, i: nat)
    requires Ranked(g, rank) && n in g.rules && i < |g.rules[n]|
    requires ComputeDeps(g, rank, st, n, i).Ok?
    ensures Compute(g, rank, st, g.rules[n][i]).Ok?
    ensures var (s, st1) := Compute(g, rank, st, g.rules[n][i]).value;
      && ComputeDeps(g, rank, st1, n, i + 1).Ok?
      && ComputeDeps(g, rank, st, n, i).value == ([s] + ComputeDeps(g, rank, st1, n, i + 1).value.0, ComputeDeps(g, rank, st1, n, i + 1).value.1)
  {
  }

  /** The rebuild case of `Compute` on a derived node. */
  lemma ComputeRebuilds<N, V>(g: Graph<N, V>, rank: N -> nat, st: States<N, V>, n: N)
    requires Ranked(g, rank) && n in g.rules && ComputeDeps(g, rank, st, n, 0).Ok?
    requires var (ds, st1) := ComputeDeps(g, rank, st, n, 0).value; n !in st1 || Stale(ds, st1[n].depVersions)
    ensures var (ds, st1) := ComputeDeps(g, rank, st, n, 0).value;
      var s := State(g.callback(n, Values(ds)), if n in st1 then st1[n].version + 1 else 0, Versions(ds));
      Compute(g, rank, st, n) == Ok((s, st1[n := s]))
  {
  }

  /** The cache-hit case of `Compute` on a derived node. */
  lemma ComputeHits<N, V>(g: Graph<N, V>, rank: N -> nat, st: States<N, V>, n: N)
    requires Ranked(g, rank) && n in g.rules && ComputeDeps(g, rank, st, n, 0).Ok?
    requires var (ds, st1) := ComputeDeps(g, rank, st, n, 0).value; n in st1 && !Stale(ds, st1[n].depVersions)
    ensures var st1 := ComputeDeps(g, rank, st, n, 0).value.1; Compute(g, rank, st, n) == Ok((st1[n], st1))
  {
  }

  // ---------- Freshness: when `compute` is a cache hit ----------

  /**
   * The recorded dependency versions of derived node `n` agree with the
   * current versions of its dependencies, over the positions `zip` pairs up.
   */
  ghost predicate InSync<N, V>(g: Graph<N, V>, st: States<N, V>, n: N)
    requires n in g.rules && n in st
  {
    forall j :: 0 <= j < |g.rules[n]| && j < |st[n].depVersions| ==>
      g.rules[n][j] in st && st[g.rules[n][j]].version == st[n].depVersions[j]
  }

  /** `n` and everything it depends on is built and in sync: computing it changes nothing. */
  ghost predicate Fresh<N, V>(g: Graph<N, V>, rank: N -> nat, st: States<N, V>, n: N)
    requires Ranked(g, rank)
    ensures Fresh(g, rank, st, n) ==> n in st
    decreases rank(n)
  {
    && n in st
    && (n in g.rules ==>
          && (forall j :: 0 <= j < |g.rules[n]| ==> Fresh(g, rank, st, g.rules[n][j]))
          && InSync(g, st, n))
  }

  /** Every fresh node of `st` has the same entry in `st'`. */
  ghost predicate KeepsFresh<N, V>(g: Graph<N, V>, rank: N -> nat, st: States<N, V>, st': States<N, V>)
    requires Ranked(g, rank)
  {
    forall y :: y in st && Fresh(g, rank, st, y) ==> y in st' && st'[y] == st[y]
  }

  lemma {:induction false} FreshStable<N, V>(g: Graph<N, V>, rank: N -> nat, st: States<N, V>, st': States<N, V>, x: N)
    requires Ranked(g, rank) && Fresh(g, rank, st, x) && KeepsFresh(g, rank, st, st')
    ensures Fresh(g, rank, st', x)
    decreases rank(x)
  {
    if x in g.rules {
      forall j | 0 <= j < |g.rules[x]|
        ensures Fresh(g, rank, st', g.rules[x][j])
      {
        FreshStable(g, rank, st, st', g.rules[x][j]);
      }
    }
  }

  /** Computing a fresh node returns its stored state and leaves the table as it is. */
  lemma {:induction false} FreshHit<N, V>(g: Graph<N, V>, rank: N -> nat, st: States<N, V>, n: N)
    requires Ranked(g, rank) && Fresh(g, rank, st, n)
    ensures Compute(g, rank, st, n) == Ok((st[n], st))
    decreases rank(n), 1
  {
    if n in g.rules {
      FreshDepsHit(g, rank, st, n, 0);
      var ds := ComputeDeps(g, rank, st, n, 0).value.0;
      assert !Stale(ds, st[n].depVersions);
    }
  }

  lemma {:induction false} FreshDepsHit<N, V>(g: Graph<N, V>, rank: N -> nat, st: States<N, V>, n: N, i: nat)
    requires Ranked(g, rank) && n in g.rules && i <= |g.rules[n]|
    requires forall j :: i <= j < |g.rules[n]| ==> Fresh(g, rank, st, g.rules[n][j])
    ensures ComputeDeps(g, rank, st, n, i).Ok?
    ensures ComputeDeps(g, rank, st, n, i).value.1 == st
    ensures DepStates(g, st, n, i, ComputeDeps(g, rank, st, n, i).value.0)
    decreases rank(n), 0, |g.rules[n]| - i
  {
    if i < |g.rules[n]| {
      var d := g.rules[n][i];
      FreshHit(g, rank, st, d);
      FreshDepsHit(g, rank, st, n, i + 1);
      var ss := ComputeDeps(g, rank, st, n, i + 1).value.0;
      assert ComputeDeps(g, rank, st, n, i) == Ok(([st[d]] + ss, st));
      DepStatesCons(g, st, n, i, st[d], ss);
    }
  }

  /** `compute` never changes the entry of a node that was fresh before it. */
  lemma {:induction false} ComputeKeepsFresh<N, V>(g: Graph<N, V>, rank: N -> nat, st: States<N, V>, n: N)
    requires Ranked(g, rank) && Compute(g, rank, st, n).Ok?
    ensures KeepsFresh(g, rank, st, Compute(g, rank, st, n).value.1)
    decreases rank(n), 1
  {
    if n in g.rules {
      ComputeDepsKeepsFresh(g, rank, st, n, 0);
      if Fresh(g, rank, st, n) {
        FreshHit(g, rank, st, n);
      }
    }
  }

  lemma {:induction false} ComputeDepsKeepsFresh<N, V>(g: Graph<N, V>, rank: N -> nat, st: States<N, V>, n: N, i: nat)
    requires Ranked(g, rank) && n in g.rules && i <= |g.rules[n]|
    requires ComputeDeps(g, rank, st, n, i).Ok?
    ensures KeepsFresh(g, rank, st, ComputeDeps(g, rank, st, n, i).value.1)
    decreases rank(n), 0, |g.rules[n]| - i
  {
    if i < |g.rules[n]| {
      var d := g.rules[n][i];
      var st1 := Compute(g, rank, st, d).value.1;
      ComputeKeepsFresh(g, rank, st, d);
      ComputeDepsKeepsFresh(g, rank, st1, n, i + 1);
      var st2 := ComputeDeps(g, rank, st1, n, i + 1).value.1;
      forall y | y in st && Fresh(g, rank, st, y)
        ensures y in st2 && st2[y] == st[y]
      {
        FreshStable(g, rank, st, st1, y);
      }
    }
  }

  /** With the dependency states `ds` read from the table, `n` is in sync exactly when it is not `Stale`. */
  lemma InSyncIffNotStale<N, V>(g: Graph<N, V>, st: States<N, V>, n: N, ds: seq<State<V>>)
    requires n in g.rules && n in st && DepStates(g, st, n, 0, ds)
    ensures InSync(g, st, n) <==> !Stale(ds, st[n].depVersions)
  {
  }

  /** Rebuilding a node whose dependencies are fresh makes it fresh, without disturbing them. */
  lemma RebuildMakesFresh<N, V>(g: Graph<N, V>, rank: N -> nat, st: States<N, V>, n: N, ds: seq<State<V>>, s: State<V>)
    requires Ranked(g, rank) && n in g.rules && FreshDeps(g, rank, st, n, 0, ds)
    requires n !in st || Stale(ds, st[n].depVersions)
    requires s.depVersions == Versions(ds)
    ensures Fresh(g, rank, st[n := s], n)
  {
    var deps := g.rules[n];
    var st' := st[n := s];
    if n in st {
      InSyncIffNotStale(g, st, n, ds);
    }
    assert !Fresh(g, rank, st, n);
    assert KeepsFresh(g, rank, st, st');
    forall j | 0 <= j < |deps|
      ensures Fresh(g, rank, st', deps[j]) && ds[j] == st'[deps[j]]
    {
      FreshStable(g, rank, st, st', deps[j]);
    }
    InSyncIffNotStale(g, st', n, ds);
  }

  /** After `compute`, the node and everything it depends on is fresh. */
  lemma {:induction false} ComputeMakesFresh<N, V>(g: Graph<N, V>, rank: N -> nat, st: States<N, V>, n: N)
    requires Ranked(g, rank) && Compute(g, rank, st, n).Ok?
    ensures Fresh(g, rank, Compute(g, rank, st, n).value.1, n)
    decreases rank(n), 1
  {
    if n in g.rules {
      assert ComputeDeps(g, rank, st, n, 0).Ok?;
      var ds := ComputeDeps(g, rank, st, n, 0).value.0;
      var st1 := ComputeDeps(g, rank, st, n, 0).value.1;
      ComputeDepsMakesFresh(g, rank, st, n, 0);
      if n !in st1 || Stale(ds, st1[n].depVersions) {
        ComputeRebuilds(g, rank, st, n);
        RebuildMakesFresh(g, rank, st1, n, ds, Compute(g, rank, st, n).value.0);
      } else {
        ComputeHits(g, rank, st, n);
        InSyncIffNotStale(g, st1, n, ds);
      }
    }
  }

  lemma {:induction false} ComputeDepsMakesFresh<N, V>(g: Graph<N, V>, rank: N -> nat, st: States<N, V>, n: N, i: nat)
    requires Ranked(g, rank) && n in g.rules && i <= |g.rules[n]|
    requires ComputeDeps(g, rank, st, n, i).Ok?
    ensures FreshDeps(g, rank, ComputeDeps(g, rank, st, n, i).value.1, n, i, ComputeDeps(g, rank, st, n, i).value.0)
    decreases rank(n), 0, |g.rules[n]| - i
  {
    if i < |g.rules[n]| {
      var d := g.rules[n][i];
      ComputeDepsStep(g, rank, st, n, i);
      var s := Compute(g, rank, st, d).value.0;
      var st1 := Compute(g, rank, st, d).value.1;
      var ss := ComputeDeps(g, rank, st1, n, i + 1).value.0;
      var st2 := ComputeDeps(g, rank, st1, n, i + 1).value.1;
      ComputeMakesFresh(g, rank, st, d);
      ComputeDepsMakesFresh(g, rank, st1, n, i + 1);
      ComputeDepsKeepsFresh(g, rank, st1, n, i + 1);
      FreshStable(g, rank, st1, st2, d);
      FreshDepsCons(g, rank, st2, n, i, s, ss);
    }
  }

  /** `ds` holds the current entries of the dependencies of `n` from position `i` on. */
  ghost predicate DepStates<N, V>(g: Graph<N, V>, st: States<N, V>, n: N, i: nat, ds: seq<State<V>>)
    requires n in g.rules
  {
    && |ds| == |g.rules[n]| - i
    && forall j :: i <= j < |g.rules[n]| ==> g.rules[n][j] in st && ds[j - i] == st[g.rules[n][j]]
  }

  /** As `DepStates`, and every one of those dependencies is fresh. */
  ghost predicate FreshDeps<N, V>(g: Graph<N, V>, rank: N -> nat, st: States<N, V>, n: N, i: nat, ds: seq<State<V>>)
    requires Ranked(g, rank) && n in g.rules
  {
    && DepStates(g, st, n, i, ds)
    && forall j :: i <= j < |g.rules[n]| ==> Fresh(g, rank, st, g.rules[n][j])
  }

  lemma DepStatesCons<N, V>(g: Graph<N, V>, st: States<N, V>, n: N, i: nat, s: State<V>, ss: seq<State<V>>)
    requires n in g.rules && i < |g.rules[n]|
    requires g.rules[n][i] in st && s == st[g.rules[n][i]]
    requires DepStates(g, st, n, i + 1, ss)
    ensures DepStates(g, st, n, i, [s] + ss)
  {
    forall j | i < j < |g.rules[n]|
      ensures ([s] + ss)[j - i] == st[g.rules[n][j]]
    {
      assert ([s] + ss)[j - i] == ss[j - (i + 1)];
    }
  }

  lemma FreshDepsCons<N, V>(g: Graph<N, V>, rank: N -> nat, st: States<N, V>, n: N, i: nat, s: State<V>, ss: seq<State<V>>)
    requires Ranked(g, rank) && n in g.rules && i < |g.rules[n]|
    requires Fresh(g, rank, st, g.rules[n][i]) && s == st[g.rules[n][i]]
    requires FreshDeps(g, rank, st, n, i + 1, ss)
    ensures FreshDeps(g, rank, st, n, i, [s] + ss)
  {
    DepStatesCons(g, st, n, i, s, ss);
  }

  /**
   * Idempotent read: with no write in between, a second `compute` of the same
   * node is a pure cache hit, returning the same state and rebuilding nothing.
   */
  lemma ComputeIdempotent<N, V>(g: Graph<N, V>, rank: N -> nat, st: States<N, V>, n: N)
    requires Ranked(g, rank) && Compute(g, rank, st, n).Ok?
    ensures var (s, st') := Compute(g, rank, st, n).value; Compute(g, rank, st', n) == Ok((s, st'))
  {
    ComputeMakesFresh(g, rank, st, n);
    FreshHit(g, rank, Compute(g, rank, st, n).value.1, n);
  }

  // ---------- Correctness: the incremental value is the from-scratch value ----------

  /** The values of the sources, as last written. */
  function Sources<N, V>(g: Graph<N, V>, st: States<N, V>): map<N, V> {
    map x | x in st && x !in g.rules :: st[x].value
  }

  /**
   * The reference semantics: the value of `n` evaluated from scratch from the
   * source values `src`, with no memoisation; `None` when it needs a source
   * that has no value.
   */
  function Eval<N, V>(g: Graph<N, V>, ghost rank: N -> nat, src: map<N, V>, n: N): Option<V>
    requires Ranked(g, rank)
    decreases rank(n), 1, 0
  {
    if n !in g.rules then
      if n in src then Some(src[n]) else None
    else
      match EvalDeps(g, rank, src, n, 0)
      case None => None
      case Some(vs) => Some(g.callback(n, vs))
  }

  function EvalDeps<N, V>(g: Graph<N, V>, ghost rank: N -> nat, src: map<N, V>, n: N, i: nat): (r: Option<seq<V>>)
    requires Ranked(g, rank) && n in g.rules && i <= |g.rules[n]|
    ensures r.Some? <==> forall j :: i <= j < |g.rules[n]| ==> Eval(g, rank, src, g.rules[n][j]).Some?
    ensures r.Some? ==> |r.value| == |g.rules[n]| - i
    ensures r.Some? ==> forall j :: i <= j < |g.rules[n]| ==> r.value[j - i] == Eval(g, rank, src, g.rules[n][j]).value
    decreases rank(n), 0, |g.rules[n]| - i
  {
    if i == |g.rules[n]| then Some([])
    else
      match Eval(g, rank, src, g.rules[n][i])
      case None => None
      case Some(v) =>
        match EvalDeps(g, rank, src, n, i + 1)
        case None => None
        case Some(vs) => Some([v] + vs)
  }

  /** The current values of `deps`, in order. */
  function DepValues<N, V>(st: States<N, V>, deps: seq<N>): (r: seq<V>)
    requires forall j :: 0 <= j < |deps| ==> deps[j] in st
    ensures |r| == |deps|
    ensures forall j :: 0 <= j < |deps| ==> r[j] == st[deps[j]].value
  {
    seq(|deps|, j requires 0 <= j < |deps| => st[deps[j]].value)
  }

  /**
   * The invariant of the table of a built derived node: it recorded one
   * version per dependency, none newer than that dependency's current
   * version, and while all of them are still current its value is the
   * callback applied to the dependencies' current values.
   */
  ghost predicate Built<N, V>(g: Graph<N, V>, st: States<N, V>, x: N)
    requires x in st && x in g.rules
  {
    var deps := g.rules[x];
    && |st[x].depVersions| == |deps|
    && (forall j :: 0 <= j < |deps| ==> deps[j] in st && st[x].depVersions[j] <= st[deps[j]].version)
    && (InSync(g, st, x) ==> st[x].value == g.callback(x, DepValues(st, deps)))
  }

  ghost predicate Coherent<N, V>(g: Graph<N, V>, st: States<N, V>) {
    forall x {:trigger Built(g, st, x)} :: x in st && x in g.rules ==> Built(g, st, x)
  }

  /** `write` keeps the table coherent: the written source's version moves past every recorded one. */
  lemma WriteKeepsCoherent<N, V>(g: Graph<N, V>, st: States<N, V>, n: N, v: V)
    requires Coherent(g, st) && Write(g, st, n, v).Ok?
    ensures Coherent(g, Write(g, st, n, v).value)
  {
    var st' := Write(g, st, n, v).value;
    forall x | x in st' && x in g.rules
      ensures Built(g, st', x)
    {
      assert x != n && Built(g, st, x);
      var deps := g.rules[x];
      if j :| 0 <= j < |deps| && deps[j] == n {
        assert !InSync(g, st', x);
      } else {
        assert DepValues(st', deps) == DepValues(st, deps);
      }
    }
  }

  /** Rebuilding `n` from the current states `ds` of its dependencies keeps the table coherent. */
  lemma RebuildKeepsCoherent<N, V>(g: Graph<N, V>, rank: N -> nat, st: States<N, V>, n: N, ds: seq<State<V>>)
    requires Ranked(g, rank) && Coherent(g, st) && n in g.rules && DepStates(g, st, n, 0, ds)
    ensures var s := State(g.callback(n, Values(ds)), if n in st then st[n].version + 1 else 0, Versions(ds));
      Coherent(g, st[n := s])
  {
    var s := State(g.callback(n, Values(ds)), if n in st then st[n].version + 1 else 0, Versions(ds));
    var st' := st[n := s];
    forall x | x in st' && x in g.rules
      ensures Built(g, st', x)
    {
      var deps := g.rules[x];
      if x == n {
        assert DepValues(st', deps) == Values(ds);
      } else {
        assert Built(g, st, x);
        if j :| 0 <= j < |deps| && deps[j] == n {
          assert !InSync(g, st', x);
        } else {
          assert DepValues(st', deps) == DepValues(st, deps);
        }
      }
    }
  }

  lemma {:induction false} ComputeKeepsCoherent<N, V>(g: Graph<N, V>, rank: N -> nat, st: States<N, V>, n: N)
    requires Ranked(g, rank) && Coherent(g, st) && Compute(g, rank, st, n).Ok?
    ensures Coherent(g, Compute(g, rank, st, n).value.1)
    decreases rank(n), 1
  {
    if n in g.rules {
      assert ComputeDeps(g, rank, st, n, 0).Ok?;
      var ds := ComputeDeps(g, rank, st, n, 0).value.0;
      var st1 := ComputeDeps(g, rank, st, n, 0).value.1;
      ComputeDepsKeepsCoherent(g, rank, st, n, 0);
      if n !in st1 || Stale(ds, st1[n].depVersions) {
        ComputeDepsMakesFresh(g, rank, st, n, 0);
        ComputeRebuilds(g, rank, st, n);
        RebuildKeepsCoherent(g, rank, st1, n, ds);
      } else {
        ComputeHits(g, rank, st, n);
      }
    }
  }

  lemma {:induction false} ComputeDepsKeepsCoherent<N, V>(g: Graph<N, V>, rank: N -> nat, st: States<N, V>, n: N, i: nat)
    requires Ranked(g, rank) && n in g.rules && i <= |g.rules[n]|
    requires Coherent(g, st) && ComputeDeps(g, rank, st, n, i).Ok?
    ensures Coherent(g, ComputeDeps(g, rank, st, n, i).value.1)
    decreases rank(n), 0, |g.rules[n]| - i
  {
    if i < |g.rules[n]| {
      var d := g.rules[n][i];
      ComputeKeepsCoherent(g, rank, st, d);
      ComputeDepsKeepsCoherent(g, rank, Compute(g, rank, st, d).value.1, n, i + 1);
    }
  }

  /** In a coherent table a fresh node holds exactly its from-scratch value. */
  lemma {:induction false} FreshCorrect<N, V>(g: Graph<N, V>, rank: N -> nat, st: States<N, V>, x: N)
    requires Ranked(g, rank) && Coherent(g, st) && Fresh(g, rank, st, x)
    ensures Eval(g, rank, Sources(g, st), x) == Some(st[x].value)
    decreases rank(x)
  {
    if x in g.rules {
      var deps := g.rules[x];
      forall j | 0 <= j < |deps|
        ensures Eval(g, rank, Sources(g, st), deps[j]) == Some(st[deps[j]].value)
      {
        FreshCorrect(g, rank, st, deps[j]);
      }
      assert Built(g, st, x);
      assert EvalDeps(g, rank, Sources(g, st), x, 0).value == DepValues(st, deps);
    }
  }

  /** `compute` never changes which sources have which values. */
  lemma ComputeKeepsSources<N, V>(g: Graph<N, V>, rank: N -> nat, st: States<N, V>, n: N)
    requires Ranked(g, rank) && Compute(g, rank, st, n).Ok?
    ensures Sources(g, Compute(g, rank, st, n).value.1) == Sources(g, st)
  {
    var st' := Compute(g, rank, st, n).value.1;
    assert Evolves(g, st, st');
    assert Sources(g, st').Keys == Sources(g, st).Keys;
  }

  /**
   * The incremental engine is correct: starting from a coherent table,
   * `compute` returns the value the graph has from scratch on the current
   * source values, and leaves the table coherent.
   */
  lemma ComputeCorrect<N, V>(g: Graph<N, V>, rank: N -> nat, st: States<N, V>, n: N)
    requires Ranked(g, rank)
    ensures Coherent(g, st) && Compute(g, rank, st, n).Ok? ==>
      && Eval(g, rank, Sources(g, st), n) == Some(Compute(g, rank, st, n).value.0.value)
      && Coherent(g, Compute(g, rank, st, n).value.1)
  {
    if Coherent(g, st) && Compute(g, rank, st, n).Ok? {
      var st' := Compute(g, rank, st, n).value.1;
      ComputeKeepsCoherent(g, rank, st, n);
      ComputeMakesFresh(g, rank, st, n);
      FreshCorrect(g, rank, st', n);
      ComputeKeepsSources(g, rank, st, n);
    }
  }

  /** `compute` fails exactly when the from-scratch evaluation needs a source that was never written. */
  lemma {:induction false} ComputeFailsIffUnwritten<N, V>(g: Graph<N, V>, rank: N -> nat, st: States<N, V>, n: N)
    requires Ranked(g, rank)
    ensures Compute(g, rank, st, n).Ok? <==> Eval(g, rank, Sources(g, st), n).Some?
    decreases rank(n), 1
  {
    if n in g.rules {
      ComputeDepsFailsIffUnwritten(g, rank, st, n, 0);
    }
  }

  lemma {:induction false} ComputeDepsFailsIffUnwritten<N, V>(g: Graph<N, V>, rank: N -> nat, st: States<N, V>, n: N, i: nat)
    requires Ranked(g, rank) && n in g.rules && i <= |g.rules[n]|
    ensures ComputeDeps(g, rank, st, n, i).Ok? <==> EvalDeps(g, rank, Sources(g, st), n, i).Some?
    decreases rank(n), 0, |g.rules[n]| - i
  {
    if i < |g.rules[n]| {
      var d := g.rules[n][i];
      ComputeFailsIffUnwritten(g, rank, st, d);
      if Compute(g, rank, st, d).Ok? {
        var st1 := Compute(g, rank, st, d).value.1;
        ComputeKeepsSources(g, rank, st, d);
        ComputeDepsFailsIffUnwritten(g, rank, st1, n, i + 1);
      }
    }
  }

  /** Idempotent read: a second `read` with no write in between returns the same value and changes nothing. */
  lemma ReadTwice<N, V>(g: Graph<N, V>, rank: N -> nat, st: States<N, V>, n: N)
    requires Ranked(g, rank) && Read(g, rank, st, n).Ok?
    ensures var (v, st') := Read(g, rank, st, n).value; Read(g, rank, st', n) == Ok((v, st'))
  {
    ComputeIdempotent(g, rank, st, n);
  }

  // ---------- Demand: what `compute` touches ----------

  /** `x` is `n` or something `n` is (transitively) built from. */
  ghost predicate DependsOn<N, V>(g: Graph<N, V>, rank: N -> nat, n: N, x: N)
    requires Ranked(g, rank)
    decreases rank(n)
  {
    || n == x
    || (n in g.rules && exists j :: 0 <= j < |g.rules[n]| && DependsOn(g, rank, g.rules[n][j], x))
  }

  /** Some dependency of `n` at position `i` or later depends on `x`. */
  ghost predicate DepsDependOn<N, V>(g: Graph<N, V>, rank: N -> nat, n: N, i: nat, x: N)
    requires Ranked(g, rank) && n in g.rules
  {
    exists j :: i <= j < |g.rules[n]| && DependsOn(g, rank, g.rules[n][j], x)
  }

  lemma {:induction false} DependsOnRank<N, V>(g: Graph<N, V>, rank: N -> nat, n: N, x: N)
    requires Ranked(g, rank) && DependsOn(g, rank, n, x)
    ensures rank(x) <= rank(n)
    decreases rank(n)
  {
    if n != x {
      var j :| 0 <= j < |g.rules[n]| && DependsOn(g, rank, g.rules[n][j], x);
      DependsOnRank(g, rank, g.rules[n][j], x);
    }
  }

  /**
   * Demand-driven recomputation: `compute` of `n` leaves the entry of every
   * node that `n` does not depend on exactly as it was.
   */
  lemma {:induction false} ComputeFrame<N, V>(g: Graph<N, V>, rank: N -> nat, st: States<N, V>, n: N)
    requires Ranked(g, rank) && Compute(g, rank, st, n).Ok?
    ensures var st' := Compute(g, rank, st, n).value.1;
      forall x :: x in st' && !DependsOn(g, rank, n, x) ==> x in st && st'[x] == st[x]
    decreases rank(n), 1
  {
    if n in g.rules {
      ComputeDepsFrame(g, rank, st, n, 0);
    }
  }

  lemma {:induction false} ComputeDepsFrame<N, V>(g: Graph<N, V>, rank: N -> nat, st: States<N, V>, n: N, i: nat)
    requires Ranked(g, rank) && n in g.rules && i <= |g.rules[n]|
    requires ComputeDeps(g, rank, st, n, i).Ok?
    ensures var st' := ComputeDeps(g, rank, st, n, i).value.1;
      forall x :: x in st' && !DepsDependOn(g, rank, n, i, x) ==> x in st && st'[x] == st[x]
    decreases rank(n), 0, |g.rules[n]| - i
  {
    if i < |g.rules[n]| {
      var d := g.rules[n][i];
      var st1 := Compute(g, rank, st, d).value.1;
      ComputeFrame(g, rank, st, d);
      ComputeDepsFrame(g, rank, st1, n, i + 1);
    }
  }

  /**
   * deps.py:86-95, the rebuild rule, stated against the table before the
   * call: a derived node is rebuilt exactly when it was never built or a
   * freshly computed dependency version differs from the recorded one; a
   * rebuild applies the callback to the dependencies' values, records their
   * versions, and bumps the node's own version (0 on the first build).
   */
  lemma RebuildRule<N, V>(g: Graph<N, V>, rank: N -> nat, st: States<N, V>, n: N)
    requires Ranked(g, rank) && n in g.rules && Compute(g, rank, st, n).Ok?
    ensures ComputeDeps(g, rank, st, n, 0).Ok?
    ensures var ds := ComputeDeps(g, rank, st, n, 0).value.0;
      var s := Compute(g, rank, st, n).value.0;
      && (n !in st || Stale(ds, st[n].depVersions) ==>
            && s.value == g.callback(n, Values(ds))
            && s.depVersions == Versions(ds)
            && s.version == (if n in st then st[n].version + 1 else 0))
      && (n in st && !Stale(ds, st[n].depVersions) ==> s == st[n])
  {
    ComputeDepsFrame(g, rank, st, n, 0);
    if DepsDependOn(g, rank, n, 0, n) {
      var j :| 0 <= j < |g.rules[n]| && DependsOn(g, rank, g.rules[n][j], n);
      DependsOnRank(g, rank, g.rules[n][j], n);
    }
  }

  /** A write to `src` leaves fresh every node that was fresh and does not depend on `src`. */
  lemma {:induction false} WriteKeepsOthersFresh<N, V>(g: Graph<N, V>, rank: N -> nat, st: States<N, V>, src: N, v: V, x: N)
    requires Ranked(g, rank) && Fresh(g, rank, st, x) && !DependsOn(g, rank, x, src)
    requires Write(g, st, src, v).Ok?
    ensures Fresh(g, rank, Write(g, st, src, v).value, x)
    decreases rank(x)
  {
    if x in g.rules {
      forall j | 0 <= j < |g.rules[x]|
        ensures Fresh(g, rank, Write(g, st, src, v).value, g.rules[x][j])
      {
        WriteKeepsOthersFresh(g, rank, st, src, v, g.rules[x][j]);
      }
    }
  }

  /**
   * The staleness law, first half: after a write to `src`, a node that was up
   * to date and does not depend on `src` is not recomputed by the next
   * `compute` of any node.
   */
  lemma UnrelatedNotRebuilt<N, V>(g: Graph<N, V>, rank: N -> nat, st: States<N, V>, src: N, v: V, n: N, x: N)
    requires Ranked(g, rank) && Fresh(g, rank, st, x) && !DependsOn(g, rank, x, src)
    requires Write(g, st, src, v).Ok?
    requires Compute(g, rank, Write(g, st, src, v).value, n).Ok?
    ensures var st' := Compute(g, rank, Write(g, st, src, v).value, n).value.1;
      x in st' && st'[x] == st[x]
  {
    var st2 := Write(g, st, src, v).value;
    WriteKeepsOthersFresh(g, rank, st, src, v, x);
    ComputeKeepsFresh(g, rank, st2, n);
  }

  /** Every entry of `b` is still in `t`, either unchanged or with a larger version. */
  ghost predicate Newer<N, V>(b: States<N, V>, t: States<N, V>) {
    forall z :: z in b ==> z in t && (t[z] == b[z] || t[z].version > b[z].version)
  }

  lemma {:induction false} DependentNewer<N, V>(g: Graph<N, V>, rank: N -> nat, b: States<N, V>, t: States<N, V>, src: N, y: N)
    requires Ranked(g, rank) && Coherent(g, b) && Newer(b, t)
    requires src !in g.rules && src in b && src in t && t[src].version > b[src].version
    requires DependsOn(g, rank, y, src) && y in b && Compute(g, rank, t, y).Ok?
    ensures Compute(g, rank, t, y).value.0.version > b[y].version
    decreases rank(y), 1
  {
    if y in g.rules {
      var deps := g.rules[y];
      var j :| 0 <= j < |deps| && DependsOn(g, rank, deps[j], src);
      RebuildRule(g, rank, t, y);
      var ds := ComputeDeps(g, rank, t, y, 0).value.0;
      DependentDepsNewer(g, rank, b, t, src, y, 0);
      assert ds[j - 0].version > b[deps[j]].version;
      assert Built(g, b, y);
      if t[y] == b[y] {
        assert Stale(ds, t[y].depVersions) by {
          assert ds[j].version != t[y].depVersions[j];
        }
      }
    }
  }

  /**
   * Every dependency of `y` from position `i` on that depends on `src` has,
   * in `ds`, a version larger than its entry in `b`.
   */
  ghost predicate NewerDeps<N, V>(g: Graph<N, V>, rank: N -> nat, b: States<N, V>, src: N, y: N, i: nat, ds: seq<State<V>>)
    requires Ranked(g, rank) && y in g.rules
  {
    && |ds| == |g.rules[y]| - i
    && forall j :: i <= j < |g.rules[y]| && DependsOn(g, rank, g.rules[y][j], src) ==>
         g.rules[y][j] in b && ds[j - i].version > b[g.rules[y][j]].version
  }

  lemma NewerDepsCons<N, V>(g: Graph<N, V>, rank: N -> nat, b: States<N, V>, src: N, y: N, i: nat, s: State<V>, ss: seq<State<V>>)
    requires Ranked(g, rank) && y in g.rules && i < |g.rules[y]|
    requires DependsOn(g, rank, g.rules[y][i], src) ==> g.rules[y][i] in b && s.version > b[g.rules[y][i]].version
    requires NewerDeps(g, rank, b, src, y, i + 1, ss)
    ensures NewerDeps(g, rank, b, src, y, i, [s] + ss)
  {
    forall j | i < j < |g.rules[y]| && DependsOn(g, rank, g.rules[y][j], src)
      ensures g.rules[y][j] in b && ([s] + ss)[j - i].version > b[g.rules[y][j]].version
    {
      assert ([s] + ss)[j - i] == ss[j - (i + 1)];
    }
  }

  lemma {:induction false} DependentDepsNewer<N, V>(g: Graph<N, V>, rank: N -> nat, b: States<N, V>, t: States<N, V>, src: N, y: N, i: nat)
    requires Ranked(g, rank) && Coherent(g, b) && Newer(b, t)
    requires src !in g.rules && src in b && src in t && t[src].version > b[src].version
    requires y in g.rules && y in b && i <= |g.rules[y]| && ComputeDeps(g, rank, t, y, i).Ok?
    ensures NewerDeps(g, rank, b, src, y, i, ComputeDeps(g, rank, t, y, i).value.0)
    decreases rank(y), 0, |g.rules[y]| - i
  {
    if i < |g.rules[y]| {
      var d := g.rules[y][i];
      ComputeDepsStep(g, rank, t, y, i);
      var s := Compute(g, rank, t, d).value.0;
      var t1 := Compute(g, rank, t, d).value.1;
      var ss := ComputeDeps(g, rank, t1, y, i + 1).value.0;
      assert Newer(b, t1) by {
        assert Evolves(g, t, t1);
      }
      DependentDepsNewer(g, rank, b, t1, src, y, i + 1);
      if DependsOn(g, rank, d, src) {
        assert Built(g, b, y);
        DependentNewer(g, rank, b, t, src, d);
      }
      NewerDepsCons(g, rank, b, src, y, i, s, ss);
    }
  }

  /**
   * The staleness law, second half: after a write to `src`, the next
   * `compute` of a node that was built before and depends on `src` rebuilds
   * it, so its version moves past the one it had before the write; a
   * derived node is rebuilt exactly once, one version up.
   */
  lemma DependentRebuilt<N, V>(g: Graph<N, V>, rank: N -> nat, st: States<N, V>, src: N, v: V, x: N)
    requires Ranked(g, rank) && Coherent(g, st) && src in st && DependsOn(g, rank, x, src) && x in st
    requires Write(g, st, src, v).Ok?
    requires Compute(g, rank, Write(g, st, src, v).value, x).Ok?
    ensures Compute(g, rank, Write(g, st, src, v).value, x).value.0.version > st[x].version
    ensures x in g.rules ==> Compute(g, rank, Write(g, st, src, v).value, x).value.0.version == st[x].version + 1
  {
    var st' := Write(g, st, src, v).value;
    DependentNewer(g, rank, st, st', src, x);
    if x in g.rules {
      assert x != src && st'[x] == st[x];
      RebuildRule(g, rank, st', x);
    }
  }
}

=== FILE: pushgraph.dfy ===
/**
 * The push-based dataflow `Graph` of diffs.py (lines 92-126).  Every
 * derived node has a rule: a stage and the list of nodes whose results it
 * takes, in order; any other node is a source and gets its value (or its
 * delta) from the caller.  At construction the graph fixes an order of the
 * derived nodes by a depth-first search from each node in rule order,
 * appending a node after its dependencies; `compute` and `update` then run
 * every derived node's stage once, in that order.
 */
module PushGraph {
  import opened Wrappers
  import opened Dicts
  import opened Stages

  /** A derived node's stage, fed with the results of `deps`, in order. */
  datatype Rule<!N, !S, !V, !D> = Rule(stage: Stage<S, seq<V>, V, seq<D>, D>, deps: seq<N>)

  /** The rules, in the order of the dictionary the graph was built from. */
  datatype Network<!N, !S, !V, !D> = Network(rules: Dict<N, Rule<N, S, V, D>>)

  /** A dependency that has no result yet: Python's `KeyError`. */
  datatype Error = KeyError

  /** The dependency lists of the derived nodes. */
  function Shape<N, S, V, D>(net: Network<N, S, V, D>): (r: map<N, seq<N>>)
    ensures r.Keys == net.rules.items.Keys
    ensures forall n :: n in r ==> r[n] == net.rules.items[n].deps
  {
    map n | n in net.rules.items :: net.rules.items[n].deps
  }

  // ---------- The order (diffs.py:95-109) ----------

  /** The search's state: the `visited` set and the order built so far. */
  datatype Dfs<N> = Dfs(visited: set<N>, order: seq<N>)

  lemma CardMono<T>(a: set<T>, b: set<T>)
    requires a <= b
    ensures |a| <= |b|
    decreases |a|
  {
    if a != {} {
      var x :| x in a;
      CardMono(a - {x}, b - {x});
    }
  }

  /**
   * diffs.py:99-107: a node already visited is skipped; otherwise it is
   * marked, and a derived node has its dependencies visited in order and is
   * then appended.
   */
  function Visit<N>(shape: map<N, seq<N>>, node: N, dfs: Dfs<N>): (r: Dfs<N>)
    ensures dfs.visited <= r.visited
    ensures node in r.visited
    decreases |shape.Keys - dfs.visited|, 0
  {
    if node in dfs.visited then dfs
    else
      var d1 := Dfs(dfs.visited + {node}, dfs.order);
      assert shape.Keys - d1.visited == (shape.Keys - dfs.visited) - {node};
      if node !in shape then d1
      else
        var d2 := VisitAll(shape, shape[node], 0, d1);
        Dfs(d2.visited, d2.order + [node])
  }

  /** diffs.py:106 and 109: `visit` on each of `nodes` from position `i` on, in order. */
  function VisitAll<N>(shape: map<N, seq<N>>, nodes: seq<N>, i: nat, dfs: Dfs<N>): (r: Dfs<N>)
    requires i <= |nodes|
    ensures dfs.visited <= r.visited
    ensures forall j :: i <= j < |nodes| ==> nodes[j] in r.visited
    decreases |shape.Keys - dfs.visited|, 1, |nodes| - i
  {
    if i == |nodes| then dfs
    else
      var d1 := Visit(shape, nodes[i], dfs);
      CardMono(shape.Keys - d1.visited, shape.Keys - dfs.visited);
      var r := VisitAll(shape, nodes, i + 1, d1);
      assert nodes[i] in r.visited;
      r
  }

  /** diffs.py:96-109: the order of the derived nodes, from a search started at each rule in turn. */
  function Order<N, S, V, D>(net: Network<N, S, V, D>): seq<N>
  {
    VisitAll(Shape(net), net.rules.keys, 0, Dfs({}, [])).order
  }

  ghost predicate Distinct<N>(xs: seq<N>) {
    forall k, l :: 0 <= k < l < |xs| ==> xs[k] != xs[l]
  }

  /**
   * How the search state moves: the order only grows at the end, by
   * distinct derived nodes visited in this step, and every derived node
   * visited in this step is appended.
   */
  ghost predicate Grows<N>(shape: map<N, seq<N>>, a: Dfs<N>, b: Dfs<N>) {
    && a.visited <= b.visited
    && |a.order| <= |b.order| && b.order[..|a.order|] == a.order
    && (forall k :: |a.order| <= k < |b.order| ==> b.order[k] in shape && b.order[k] in b.visited && b.order[k] !in a.visited)
    && (forall k, l :: |a.order| <= k < l < |b.order| ==> b.order[k] != b.order[l])
    && (forall x :: x in b.visited && x !in a.visited && x in shape ==> x in b.order[|a.order|..])
  }

  lemma GrowsTransitive<N>(shape: map<N, seq<N>>, a: Dfs<N>, b: Dfs<N>, c: Dfs<N>)
    requires Grows(shape, a, b) && Grows(shape, b, c)
    ensures Grows(shape, a, c)
  {
    assert c.order[..|a.order|] == c.order[..|b.order|][..|a.order|];
    forall k | |a.order| <= k < |b.order|
      ensures c.order[k] == b.order[k]
    {
      assert c.order[k] == c.order[..|b.order|][k];
    }
    forall x | x in c.visited && x !in a.visited && x in shape
      ensures x in c.order[|a.order|..]
    {
      if x in b.visited {
        var k :| 0 <= k < |b.order[|a.order|..]| && b.order[|a.order|..][k] == x;
        assert c.order[|a.order|..][k] == x;
      } else {
        var k :| 0 <= k < |c.order[|b.order|..]| && c.order[|b.order|..][k] == x;
        assert c.order[|a.order|..][k + |b.order| - |a.order|] == x;
      }
    }
  }

  lemma {:induction false} VisitGrows<N>(shape: map<N, seq<N>>, node: N, dfs: Dfs<N>)
    ensures Grows(shape, dfs, Visit(shape, node, dfs))
    decreases |shape.Keys - dfs.visited|, 0
  {
    if node !in dfs.visited {
      var d1 := Dfs(dfs.visited + {node}, dfs.order);
      assert shape.Keys - d1.visited == (shape.Keys - dfs.visited) - {node};
      if node in shape {
        var d2 := VisitAll(shape, shape[node], 0, d1);
        VisitAllGrows(shape, shape[node], 0, d1);
        var r := Dfs(d2.visited, d2.order + [node]);
        assert r.order[..|dfs.order|] == d2.order[..|dfs.order|];
        forall k | |dfs.order| <= k < |r.order|
          ensures r.order[k] in shape && r.order[k] in r.visited && r.order[k] !in dfs.visited
        {
          if k < |d2.order| {
            assert r.order[k] == d2.order[k];
          }
        }
        forall x | x in r.visited && x !in dfs.visited && x in shape
          ensures x in r.order[|dfs.order|..]
        {
          if x == node {
            assert r.order[|dfs.order|..][|r.order| - 1 - |dfs.order|] == node;
          } else {
            var k :| 0 <= k < |d2.order[|dfs.order|..]| && d2.order[|dfs.order|..][k] == x;
            assert r.order[|dfs.order|..][k] == x;
          }
        }
      }
    }
  }

  lemma {:induction false} VisitAllGrows<N>(shape: map<N, seq<N>>, nodes: seq<N>, i: nat, dfs: Dfs<N>)
    requires i <= |nodes|
    ensures Grows(shape, dfs, VisitAll(shape, nodes, i, dfs))
    decreases |shape.Keys - dfs.visited|, 1, |nodes| - i
  {
    if i == |nodes| {
      assert dfs.order[..|dfs.order|] == dfs.order;
    } else {
      var d1 := Visit(shape, nodes[i], dfs);
      CardMono(shape.Keys - d1.visited, shape.Keys - dfs.visited);
      VisitGrows(shape, nodes[i], dfs);
      VisitAllGrows(shape, nodes, i + 1, d1);
      GrowsTransitive(shape, dfs, d1, VisitAll(shape, nodes, i + 1, d1));
    }
  }

  /** The order lists every derived node exactly once, and no source. */
  lemma OrderIsPermutation<N, S, V, D>(net: Network<N, S, V, D>)
    ensures Distinct(Order(net))
    ensures forall x :: x in Order(net) ==> x in net.rules.items
    ensures forall x :: x in net.rules.items ==> x in Order(net)
  {
    var shape := Shape(net);
    var d0 := Dfs({}, []);
    var keys := net.rules.keys;
    VisitAllGrows(shape, keys, 0, d0);
    var r := VisitAll(shape, keys, 0, d0);
    assert r.order[|d0.order|..] == r.order;
    forall x | x in net.rules.items
      ensures x in r.order
    {
      var j :| 0 <= j < |keys| && keys[j] == x;
    }
  }

  /** `rank` strictly decreases from every derived node to each of its dependencies: the graph is acyclic. */
  ghost predicate Ranked<N>(shape: map<N, seq<N>>, rank: N -> nat) {
    forall n, j :: n in shape && 0 <= j < |shape[n]| ==> rank(shape[n][j]) < rank(n)
  }

  /** Every derived dependency of a node of `order` comes earlier in `order`. */
  ghost predicate Topological<N>(shape: map<N, seq<N>>, order: seq<N>) {
    forall k, j :: 0 <= k < |order| && order[k] in shape && 0 <= j < |shape[order[k]]| && shape[order[k]][j] in shape ==>
      shape[order[k]][j] in order[..k]
  }

  /** Every visited derived node that is not on the search's `stack` is already in the order. */
  ghost predicate Closed<N>(shape: map<N, seq<N>>, dfs: Dfs<N>, stack: set<N>) {
    forall x :: x in dfs.visited && x in shape && x !in stack ==> x in dfs.order
  }

  lemma {:induction false} VisitTopological<N>(shape: map<N, seq<N>>, rank: N -> nat, node: N, dfs: Dfs<N>, stack: set<N>)
    requires Ranked(shape, rank) && Topological(shape, dfs.order) && Closed(shape, dfs, stack)
    requires forall x :: x in stack ==> rank(node) < rank(x)
    ensures var r := Visit(shape, node, dfs);
      Topological(shape, r.order) && Closed(shape, r, stack) && (node in shape ==> node in r.order)
    decreases |shape.Keys - dfs.visited|, 0
  {
    if node !in dfs.visited {
      var d1 := Dfs(dfs.visited + {node}, dfs.order);
      assert shape.Keys - d1.visited == (shape.Keys - dfs.visited) - {node};
      if node in shape {
        var deps := shape[node];
        VisitAllTopological(shape, rank, deps, 0, d1, stack + {node});
        VisitAllGrows(shape, deps, 0, d1);
        var d2 := VisitAll(shape, deps, 0, d1);
        var r := Dfs(d2.visited, d2.order + [node]);
        forall k, j | 0 <= k < |r.order| && r.order[k] in shape && 0 <= j < |shape[r.order[k]]| && shape[r.order[k]][j] in shape
          ensures shape[r.order[k]][j] in r.order[..k]
        {
          if k < |d2.order| {
            assert r.order[..k] == d2.order[..k];
          } else {
            assert r.order[..k] == d2.order;
          }
        }
      }
    }
  }

  lemma {:induction false} VisitAllTopological<N>(shape: map<N, seq<N>>, rank: N -> nat, nodes: seq<N>, i: nat, dfs: Dfs<N>, stack: set<N>)
    requires i <= |nodes|
    requires Ranked(shape, rank) && Topological(shape, dfs.order) && Closed(shape, dfs, stack)
    requires forall j, x :: i <= j < |nodes| && x in stack ==> rank(nodes[j]) < rank(x)
    ensures var r := VisitAll(shape, nodes, i, dfs);
      && Topological(shape, r.order) && Closed(shape, r, stack)
      && forall j :: i <= j < |nodes| && nodes[j] in shape ==> nodes[j] in r.order
    decreases |shape.Keys - dfs.visited|, 1, |nodes| - i
  {
    if i < |nodes| {
      var d1 := Visit(shape, nodes[i], dfs);
      CardMono(shape.Keys - d1.visited, shape.Keys - dfs.visited);
      VisitTopological(shape, rank, nodes[i], dfs, stack);
      VisitAllTopological(shape, rank, nodes, i + 1, d1, stack);
      VisitAllGrows(shape, nodes, i + 1, d1);
      var r := VisitAll(shape, nodes, i + 1, d1);
      if nodes[i] in shape {
        var k :| 0 <= k < |d1.order| && d1.order[k] == nodes[i];
        assert r.order[k] == r.order[..|d1.order|][k];
      }
    }
  }

  /** On an acyclic graph every derived dependency precedes its dependent in the order. */
  lemma OrderTopological<N, S, V, D>(net: Network<N, S, V, D>, rank: N -> nat)
    requires Ranked(Shape(net), rank)
    ensures Topological(Shape(net), Order(net))
  {
    VisitAllTopological(Shape(net), rank, net.rules.keys, 0, Dfs({}, []), {});
  }

  // ---------- compute and update (diffs.py:111-126) ----------

  /** The results of `deps`, in order, or `KeyError` when one of them has none. */
  function Args<N, X>(results: map<N, X>, deps: seq<N>): (r: Result<seq<X>, Error>)
    ensures r.Ok? <==> forall j :: 0 <= j < |deps| ==> deps[j] in results
    ensures r.Ok? ==> |r.value| == |deps| && forall j :: 0 <= j < |deps| ==> r.value[j] == results[deps[j]]
  {
    if forall j :: 0 <= j < |deps| ==> deps[j] in results then
      Ok(seq(|deps|, j requires 0 <= j < |deps| => results[deps[j]]))
    else Err(KeyError)
  }

  /**
   * diffs.py:114-116: each node of `order` in turn runs `compute` on the
   * results of its dependencies; its result is recorded (over any earlier
   * one) and so is its stage's new state.
   */
  function ComputeFrom<N, S, V, D>(net: Network<N, S, V, D>, order: seq<N>, results: map<N, V>, states: map<N, S>): (r: Result<(map<N, V>, map<N, S>), Error>)
    requires forall k :: 0 <= k < |order| ==> order[k] in net.rules.items
    ensures r.Ok? ==> results.Keys <= r.value.0.Keys && forall x :: x in r.value.0 ==> x in results || x in order
    ensures r.Ok? ==> states.Keys <= r.value.1.Keys && forall x :: x in r.value.1 ==> x in states || x in order
    ensures r.Ok? ==> forall k :: 0 <= k < |order| ==> order[k] in r.value.0 && order[k] in r.value.1
    decreases |order|
  {
    if |order| == 0 then Ok((results, states))
    else
      var rule := net.rules.items[order[0]];
      match Args(results, rule.deps)
      case Err(e) => Err(e)
      case Ok(args) =>
        var (v, s) := rule.stage.compute(args);
        ComputeFrom(net, order[1..], results[order[0] := v], states[order[0] := s])
  }

  /**
   * diffs.py:123-125: the same with `update`, each node's stage in the state
   * it was left in.
   */
  function UpdateFrom<N, S, V, D>(net: Network<N, S, V, D>, order: seq<N>, results: map<N, D>, states: map<N, S>): (r: Result<(map<N, D>, map<N, S>), Error>)
    requires forall k :: 0 <= k < |order| ==> order[k] in net.rules.items && order[k] in states
    ensures r.Ok? ==> results.Keys <= r.value.0.Keys && forall x :: x in r.value.0 ==> x in results || x in order
    ensures r.Ok? ==> forall k :: 0 <= k < |order| ==> order[k] in r.value.0
    ensures r.Ok? ==> r.value.1.Keys == states.Keys
    decreases |order|
  {
    if |order| == 0 then Ok((results, states))
    else
      var rule := net.rules.items[order[0]];
      match Args(results, rule.deps)
      case Err(e) => Err(e)
      case Ok(args) =>
        var (v, s) := rule.stage.update(states[order[0]], args);
        UpdateFrom(net, order[1..], results[order[0] := v], states[order[0] := s])
  }

  /** diffs.py:111-117: the inputs, extended with a result for every derived node; and the stages' states. */
  function Compute<N, S, V, D>(net: Network<N, S, V, D>, inputs: map<N, V>): Result<(map<N, V>, map<N, S>), Error>
  {
    OrderIsPermutation(net);
    ComputeFrom(net, Order(net), inputs, map[])
  }

  /** diffs.py:121-126: the input deltas, extended with a delta for every derived node; and the stages' states. */
  function Update<N, S, V, D>(net: Network<N, S, V, D>, deltas: map<N, D>, states: map<N, S>): Result<(map<N, D>, map<N, S>), Error>
    requires net.rules.items.Keys <= states.Keys
  {
    OrderIsPermutation(net);
    UpdateFrom(net, Order(net), deltas, states)
  }

  /** No node of `order` reads the result of a node that runs at its own position or later. */
  ghost predicate ReadsEarlier<N>(shape: map<N, seq<N>>, order: seq<N>) {
    && Distinct(order)
    && forall k, j, l :: 0 <= k <= l < |order| && order[k] in shape && 0 <= j < |shape[order[k]]| ==> shape[order[k]][j] != order[l]
  }

  /** Each dependency read at position `k` is in `keys` or was computed before `k`. */
  ghost predicate Available<N>(shape: map<N, seq<N>>, order: seq<N>, keys: set<N>) {
    forall k, j :: 0 <= k < |order| && order[k] in shape && 0 <= j < |shape[order[k]]| ==>
      shape[order[k]][j] in keys || shape[order[k]][j] in order[..k]
  }

  /** The order the graph builds reads every result only after it is final. */
  lemma OrderReadsEarlier<N, S, V, D>(net: Network<N, S, V, D>, rank: N -> nat)
    requires Ranked(Shape(net), rank)
    ensures ReadsEarlier(Shape(net), Order(net))
  {
    var shape := Shape(net);
    var order := Order(net);
    OrderIsPermutation(net);
    OrderTopological(net, rank);
    forall k, j, l | 0 <= k <= l < |order| && order[k] in shape && 0 <= j < |shape[order[k]]|
      ensures shape[order[k]][j] != order[l]
    {
      var d := shape[order[k]][j];
      if d in shape {
        assert d in order[..k];
        assert forall m :: 0 <= m < k ==> order[m] != order[l];
      }
    }
  }

  lemma ReadsEarlierTail<N>(shape: map<N, seq<N>>, order: seq<N>)
    requires ReadsEarlier(shape, order) && |order| > 0
    ensures ReadsEarlier(shape, order[1..])
  {
    var t := order[1..];
    forall k, j, l | 0 <= k <= l < |t| && t[k] in shape && 0 <= j < |shape[t[k]]|
      ensures shape[t[k]][j] != t[l]
    {
      assert t[k] == order[k + 1] && t[l] == order[l + 1];
    }
  }

  /** `compute` fails exactly when some node reads a dependency that neither is an input nor ran before it. */
  lemma {:induction false} ComputeFromFails<N, S, V, D>(net: Network<N, S, V, D>, order: seq<N>, results: map<N, V>, states: map<N, S>)
    requires forall k :: 0 <= k < |order| ==> order[k] in net.rules.items
    ensures ComputeFrom(net, order, results, states).Ok? <==> Available(Shape(net), order, results.Keys)
    decreases |order|
  {
    var shape := Shape(net);
    if |order| > 0 {
      var o := order[0];
      var t := order[1..];
      var rule := net.rules.items[o];
      if Args(results, rule.deps).Ok? {
        var (v, s) := rule.stage.compute(Args(results, rule.deps).value);
        ComputeFromFails(net, t, results[o := v], states[o := s]);
        AvailableStep(shape, order, results.Keys);
      } else {
        var j :| 0 <= j < |rule.deps| && rule.deps[j] !in results;
        assert !(rule.deps[j] in results.Keys || rule.deps[j] in order[..0]);
      }
    }
  }

  lemma AvailableStep<N>(shape: map<N, seq<N>>, order: seq<N>, keys: set<N>)
    requires |order| > 0 && order[0] in shape && forall j :: 0 <= j < |shape[order[0]]| ==> shape[order[0]][j] in keys
    ensures Available(shape, order, keys) <==> Available(shape, order[1..], keys + {order[0]})
  {
    var t := order[1..];
    forall k | 1 <= k <= |order|
      ensures order[..k] == [order[0]] + t[..k - 1]
    {
    }
    if Available(shape, t, keys + {order[0]}) {
      forall k, j | 0 <= k < |order| && order[k] in shape && 0 <= j < |shape[order[k]]|
        ensures shape[order[k]][j] in keys || shape[order[k]][j] in order[..k]
      {
        if k > 0 {
          assert order[k] == t[k - 1];
        }
      }
    }
    if Available(shape, order, keys) {
      forall k, j | 0 <= k < |t| && t[k] in shape && 0 <= j < |shape[t[k]]|
        ensures shape[t[k]][j] in keys + {order[0]} || shape[t[k]][j] in t[..k]
      {
        assert t[k] == order[k + 1];
      }
    }
  }

  /** Node `n` holds the `compute` of its stage on its dependencies' results in `out`, with the matching state. */
  ghost predicate NodeSettled<N, S, V, D>(net: Network<N, S, V, D>, n: N, out: map<N, V>, outStates: map<N, S>) {
    && n in net.rules.items && n in out && n in outStates
    && var rule := net.rules.items[n];
    && Args(out, rule.deps).Ok?
    && rule.stage.compute(Args(out, rule.deps).value) == (out[n], outStates[n])
  }

  /**
   * What `compute` leaves behind: every node of `order` is settled, and
   * every input that no node overwrote keeps its value.
   */
  ghost predicate ComputeSettled<N, S, V, D>(net: Network<N, S, V, D>, order: seq<N>, inputs: map<N, V>, out: map<N, V>, outStates: map<N, S>) {
    && (forall k :: 0 <= k < |order| ==> NodeSettled(net, order[k], out, outStates))
    && (forall x :: x in inputs && x !in order ==> x in out && out[x] == inputs[x])
  }

  lemma ComputeSettledCons<N, S, V, D>(net: Network<N, S, V, D>, order: seq<N>, v: V, inputs: map<N, V>, out: map<N, V>, outStates: map<N, S>)
    requires |order| > 0 && order[0] !in order[1..]
    requires ComputeSettled(net, order[1..], inputs[order[0] := v], out, outStates)
    requires NodeSettled(net, order[0], out, outStates)
    ensures ComputeSettled(net, order, inputs, out, outStates)
  {
    forall k | 0 <= k < |order|
      ensures NodeSettled(net, order[k], out, outStates)
    {
      if k > 0 {
        assert order[k] == order[1..][k - 1];
      }
    }
  }

  /** A dependency read by the first node of a `ReadsEarlier` order is written by none of the nodes after it. */
  lemma ReadsEarlierFirst<N>(shape: map<N, seq<N>>, order: seq<N>, j: nat)
    requires ReadsEarlier(shape, order) && |order| > 0 && order[0] in shape && j < |shape[order[0]]|
    ensures shape[order[0]][j] !in order
  {
    var d := shape[order[0]][j];
    assert forall l :: 0 <= l < |order| ==> order[l] != d;
  }

  /** The first node of a distinct order does not come again. */
  lemma ReadsEarlierHead<N>(shape: map<N, seq<N>>, order: seq<N>)
    requires ReadsEarlier(shape, order) && |order| > 0
    ensures order[0] !in order[1..]
  {
    forall l | 0 <= l < |order[1..]|
      ensures order[1..][l] != order[0]
    {
      assert order[1..][l] == order[l + 1];
    }
  }

  /** One step of `ComputeFrom`: the first node's result and state are recorded before the rest run. */
  lemma ComputeFromStep<N, S, V, D>(net: Network<N, S, V, D>, order: seq<N>, results: map<N, V>, states: map<N, S>)
    requires forall k :: 0 <= k < |order| ==> order[k] in net.rules.items
    requires |order| > 0 && Args(results, net.rules.items[order[0]].deps).Ok?
    ensures var rule := net.rules.items[order[0]];
      var r := rule.stage.compute(Args(results, rule.deps).value);
      ComputeFrom(net, order, results, states) == ComputeFrom(net, order[1..], results[order[0] := r.0], states[order[0] := r.1])
  {
  }

  lemma InRulesTail<N, S, V, D>(net: Network<N, S, V, D>, order: seq<N>)
    requires |order| > 0 && forall k :: 0 <= k < |order| ==> order[k] in net.rules.items
    ensures forall k :: 0 <= k < |order[1..]| ==> order[1..][k] in net.rules.items
  {
    forall k | 0 <= k < |order[1..]|
      ensures order[1..][k] in net.rules.items
    {
      assert order[1..][k] == order[k + 1];
    }
  }

  /** `ComputeFrom` leaves every node outside `order` as it found it. */
  lemma {:induction false} ComputeFromFrame<N, S, V, D>(net: Network<N, S, V, D>, order: seq<N>, results: map<N, V>, states: map<N, S>, x: N)
    requires forall k :: 0 <= k < |order| ==> order[k] in net.rules.items
    requires ComputeFrom(net, order, results, states).Ok? && x !in order
    ensures x in results ==> ComputeFrom(net, order, results, states).value.0[x] == results[x]
    ensures x in states ==> ComputeFrom(net, order, results, states).value.1[x] == states[x]
    decreases |order|
  {
    if |order| > 0 {
      var rule := net.rules.items[order[0]];
      var r := rule.stage.compute(Args(results, rule.deps).value);
      ComputeFromStep(net, order, results, states);
      InRulesTail(net, order);
      assert x !in order[1..];
      ComputeFromFrame(net, order[1..], results[order[0] := r.0], states[order[0] := r.1], x);
    }
  }

  /** The first node of a `ReadsEarlier` order is settled once the whole order has run. */
  lemma HeadSettles<N, S, V, D>(net: Network<N, S, V, D>, order: seq<N>, results: map<N, V>, states: map<N, S>)
    requires |order| > 0 && forall k :: 0 <= k < |order| ==> order[k] in net.rules.items
    requires ReadsEarlier(Shape(net), order) && ComputeFrom(net, order, results, states).Ok?
    ensures NodeSettled(net, order[0], ComputeFrom(net, order, results, states).value.0, ComputeFrom(net, order, results, states).value.1)
  {
    var o := order[0];
    var t := order[1..];
    var rule := net.rules.items[o];
    var args := Args(results, rule.deps).value;
    var r := rule.stage.compute(args);
    ComputeFromStep(net, order, results, states);
    InRulesTail(net, order);
    var out := ComputeFrom(net, t, results[o := r.0], states[o := r.1]).value.0;
    var outStates := ComputeFrom(net, t, results[o := r.0], states[o := r.1]).value.1;
    ReadsEarlierHead(Shape(net), order);
    ComputeFromFrame(net, t, results[o := r.0], states[o := r.1], o);
    forall j | 0 <= j < |rule.deps|
      ensures rule.deps[j] in out && out[rule.deps[j]] == results[rule.deps[j]]
    {
      ReadsEarlierFirst(Shape(net), order, j);
      assert rule.deps[j] !in t;
      ComputeFromFrame(net, t, results[o := r.0], states[o := r.1], rule.deps[j]);
    }
    assert Args(out, rule.deps).value == args;
  }

  lemma {:induction false} ComputeFromSettles<N, S, V, D>(net: Network<N, S, V, D>, order: seq<N>, results: map<N, V>, states: map<N, S>)
    requires forall k :: 0 <= k < |order| ==> order[k] in net.rules.items
    requires ReadsEarlier(Shape(net), order) && ComputeFrom(net, order, results, states).Ok?
    ensures var (out, outStates) := ComputeFrom(net, order, results, states).value;
      ComputeSettled(net, order, results, out, outStates)
    decreases |order|
  {
    if |order| > 0 {
      var o := order[0];
      var rule := net.rules.items[o];
      var r := rule.stage.compute(Args(results, rule.deps).value);
      ComputeFromStep(net, order, results, states);
      InRulesTail(net, order);
      ReadsEarlierTail(Shape(net), order);
      ReadsEarlierHead(Shape(net), order);
      ComputeFromSettles(net, order[1..], results[o := r.0], states[o := r.1]);
      HeadSettles(net, order, results, states);
      var out := ComputeFrom(net, order, results, states).value;
      ComputeSettledCons(net, order, r.0, results, out.0, out.1);
    }
  }

  /**
   * Run in the graph's order, from any states, the derived nodes succeed
   * exactly when every source they read has a value, and then every derived
   * node is settled and every source keeps its value.
   */
  lemma ComputeCorrectFrom<N, S, V, D>(net: Network<N, S, V, D>, rank: N -> nat, inputs: map<N, V>, states: map<N, S>)
    requires Ranked(Shape(net), rank)
    ensures forall k :: 0 <= k < |Order(net)| ==> Order(net)[k] in net.rules.items
    ensures ComputeFrom(net, Order(net), inputs, states).Ok? <==>
      forall n, j :: n in net.rules.items && 0 <= j < |net.rules.items[n].deps| && net.rules.items[n].deps[j] !in net.rules.items ==>
        net.rules.items[n].deps[j] in inputs
    ensures ComputeFrom(net, Order(net), inputs, states).Ok? ==>
      var (out, outStates) := ComputeFrom(net, Order(net), inputs, states).value;
      && (forall n :: n in net.rules.items ==> NodeSettled(net, n, out, outStates))
      && (forall x :: x in inputs && x !in net.rules.items ==> x in out && out[x] == inputs[x])
  {
    var shape := Shape(net);
    var order := Order(net);
    OrderIsPermutation(net);
    OrderTopological(net, rank);
    OrderReadsEarlier(net, rank);
    ComputeFromFails(net, order, inputs, states);
    if Available(shape, order, inputs.Keys) {
      ComputeFromSettles(net, order, inputs, states);
      forall n, j | n in net.rules.items && 0 <= j < |net.rules.items[n].deps| && net.rules.items[n].deps[j] !in net.rules.items
        ensures net.rules.items[n].deps[j] in inputs
      {
        var k :| 0 <= k < |order| && order[k] == n;
        var d := shape[order[k]][j];
        assert forall m :: 0 <= m < k ==> order[m] in net.rules.items;
        assert d !in order[..k];
      }
    } else {
      var k, j :| 0 <= k < |order| && order[k] in shape && 0 <= j < |shape[order[k]]| &&
        !(shape[order[k]][j] in inputs.Keys || shape[order[k]][j] in order[..k]);
    }
  }

  /** With the input for every source it reads, `compute` succeeds and settles every derived node. */
  lemma ComputeCorrect<N, S, V, D>(net: Network<N, S, V, D>, rank: N -> nat, inputs: map<N, V>)
    requires Ranked(Shape(net), rank)
    ensures Compute(net, inputs).Ok? <==>
      forall n, j :: n in net.rules.items && 0 <= j < |net.rules.items[n].deps| && net.rules.items[n].deps[j] !in net.rules.items ==>
        net.rules.items[n].deps[j] in inputs
    ensures Compute(net, inputs).Ok? ==>
      var (out, states) := Compute(net, inputs).value;
      && (forall n :: n in net.rules.items ==> NodeSettled(net, n, out, states))
      && (forall x :: x in inputs && x !in net.rules.items ==> x in out && out[x] == inputs[x])
      && net.rules.items.Keys <= states.Keys
  {
    OrderIsPermutation(net);
    ComputeCorrectFrom(net, rank, inputs, map[]);
  }

  // ---------- update as compute on frozen stages ----------

  /**
   * The network whose every stage, on `compute`, runs `update` from the
   * state it held in `states`: the view of `update` the proofs about
   * `compute` carry over to.
   */
  function Frozen<N, S, V, D>(net: Network<N, S, V, D>, states: map<N, S>): (r: Network<N, S, D, D>)
    requires net.rules.items.Keys <= states.Keys
    ensures r.rules.keys == net.rules.keys && r.rules.items.Keys == net.rules.items.Keys
    ensures forall n :: n in r.rules.items ==> r.rules.items[n].deps == net.rules.items[n].deps
  {
    Network(Table(net.rules.keys, map n | n in net.rules.items ::
      var rule := net.rules.items[n];
      Rule(Stage(args => rule.stage.update(states[n], args), rule.stage.update), rule.deps)))
  }

  lemma FrozenShape<N, S, V, D>(net: Network<N, S, V, D>, states: map<N, S>)
    requires net.rules.items.Keys <= states.Keys
    ensures Shape(Frozen(net, states)) == Shape(net)
    ensures Order(Frozen(net, states)) == Order(net)
  {
  }

  /**
   * While no node of `order` has run yet, `update` in the current states is
   * `compute` of the network frozen at the states the run started from.
   */
  lemma {:induction false} UpdateIsFrozenCompute<N, S, V, D>(net: Network<N, S, V, D>, states: map<N, S>, order: seq<N>, results: map<N, D>, cur: map<N, S>)
    requires net.rules.items.Keys <= states.Keys && Distinct(order)
    requires forall k :: 0 <= k < |order| ==> order[k] in net.rules.items && order[k] in cur && cur[order[k]] == states[order[k]]
    ensures UpdateFrom(net, order, results, cur) == ComputeFrom(Frozen(net, states), order, results, cur)
    decreases |order|
  {
    if |order| > 0 {
      var o := order[0];
      var t := order[1..];
      var rule := net.rules.items[o];
      var frozen := Frozen(net, states);
      assert frozen.rules.items[o].stage.compute == (args => rule.stage.update(states[o], args));
      if Args(results, rule.deps).Ok? {
        var r := rule.stage.update(cur[o], Args(results, rule.deps).value);
        forall k | 0 <= k < |t|
          ensures t[k] in net.rules.items && t[k] in cur[o := r.1] && cur[o := r.1][t[k]] == states[t[k]]
        {
          assert t[k] == order[k + 1];
        }
        assert Distinct(t) by {
          assert forall k :: 0 <= k < |t| ==> t[k] == order[k + 1];
        }
        UpdateIsFrozenCompute(net, states, t, results[o := r.0], cur[o := r.1]);
      }
    }
  }

  /** Node `n` holds its stage's `update`, from its state in `states`, of its dependencies' deltas in `out`. */
  ghost predicate NodeUpdated<N, S, V, D>(net: Network<N, S, V, D>, states: map<N, S>, n: N, out: map<N, D>, outStates: map<N, S>) {
    && n in net.rules.items && n in states && n in out && n in outStates
    && var rule := net.rules.items[n];
    && Args(out, rule.deps).Ok?
    && rule.stage.update(states[n], Args(out, rule.deps).value) == (out[n], outStates[n])
  }

  /**
   * `update` fails exactly when some derived node reads a source with no
   * delta; otherwise every derived node holds the `update` of the deltas
   * of its dependencies, from the state it held before, and the deltas of
   * the sources are passed through.
   */
  lemma UpdateCorrect<N, S, V, D>(net: Network<N, S, V, D>, rank: N -> nat, deltas: map<N, D>, states: map<N, S>)
    requires Ranked(Shape(net), rank) && net.rules.items.Keys <= states.Keys
    ensures Update(net, deltas, states).Ok? <==>
      forall n, j :: n in net.rules.items && 0 <= j < |net.rules.items[n].deps| && net.rules.items[n].deps[j] !in net.rules.items ==>
        net.rules.items[n].deps[j] in deltas
    ensures Update(net, deltas, states).Ok? ==>
      var (out, outStates) := Update(net, deltas, states).value;
      && (forall n :: n in net.rules.items ==> NodeUpdated(net, states, n, out, outStates))
      && (forall x :: x in deltas && x !in net.rules.items ==> x in out && out[x] == deltas[x])
      && outStates.Keys == states.Keys
  {
    var frozen := Frozen(net, states);
    OrderIsPermutation(net);
    FrozenShape(net, states);
    UpdateIsFrozenCompute(net, states, Order(net), deltas, states);
    ComputeFromFails(frozen, Order(net), deltas, states);
    ComputeCorrectFrom(frozen, rank, deltas, states);
    if Update(net, deltas, states).Ok? {
      var (out, outStates) := Update(net, deltas, states).value;
      forall n | n in net.rules.items
        ensures NodeUpdated(net, states, n, out, outStates)
      {
        assert NodeSettled(frozen, n, out, outStates);
        assert frozen.rules.items[n].stage.compute == (args => net.rules.items[n].stage.update(states[n], args));
      }
    }
  }
}

=== FILE: rerun.dfy ===
/**
 * The `Rerunner` of deps-compute-update.py (lines 65-90): an arbitrary
 * function lifted into a stage whose deltas are dep-like.  `compute`
 * remembers the positional and named arguments and calls the function;
 * `update` overwrites the arguments whose delta is new and, if any was,
 * calls the function again.
 *
 * The function receives its positional arguments as a sequence and its
 * keyword arguments as a map.  A positional argument is normally a value;
 * the update as written spreads the named arguments positionally, and a
 * Python dictionary spread that way yields its keys, so a positional
 * argument may also be a name.
 */
module Rerun {
  import opened Wrappers
  import opened Dicts
  import opened Deltas

  datatype Arg<K, V> = Val(value: V) | Key(key: K)

  datatype Rerunner<!K, !V, !R> = Rerunner(f: (seq<Arg<K, V>>, map<K, V>) -> R)

  /** The arguments of the last call: the positional list and the named dictionary. */
  datatype RerunState<K, V> = RerunState(inputs: seq<V>, named: Dict<K, V>)

  /** A new value for a position the argument list does not have: Python's `IndexError`. */
  datatype Error = IndexError

  function Vals<K, V>(xs: seq<V>): (r: seq<Arg<K, V>>)
    ensures |r| == |xs| && forall i :: 0 <= i < |xs| ==> r[i] == Val(xs[i])
  {
    seq(|xs|, i requires 0 <= i < |xs| => Val(xs[i]))
  }

  function Keys<K, V>(ks: seq<K>): (r: seq<Arg<K, V>>)
    ensures |r| == |ks| && forall i :: 0 <= i < |ks| ==> r[i] == Key(ks[i])
  {
    seq(|ks|, i requires 0 <= i < |ks| => Key(ks[i]))
  }

  /** The function's result on the arguments of `st`, the positional ones as values. */
  function Run<K, V, R>(rr: Rerunner<K, V, R>, st: RerunState<K, V>): R {
    rr.f(Vals(st.inputs), st.named.items)
  }

  /** deps-compute-update.py:70-74: remember the arguments and call the function. */
  function Compute<K, V, R>(rr: Rerunner<K, V, R>, inputs: seq<V>, named: Dict<K, V>): (R, RerunState<K, V>) {
    var st := RerunState(inputs, named);
    (Run(rr, st), st)
  }

  /**
   * deps-compute-update.py:78-83: `inputs[i] = x.value` for every
   * positional delta, in order, that is new; a position past the end of
   * the list is an `IndexError`.
   */
  function ApplyPositional<V>(inputs: seq<V>, ds: seq<Delta<V>>): (r: Result<seq<V>, Error>)
    ensures r.Ok? <==> forall i :: 0 <= i < |ds| && ds[i].New? ==> i < |inputs|
    ensures r.Ok? ==> |r.value| == |inputs|
    ensures r.Ok? ==> forall i :: 0 <= i < |inputs| ==> r.value[i] == if i < |ds| then Patch(inputs[i], ds[i]) else inputs[i]
  {
    ApplyPositionalFrom(inputs, ds, 0)
  }

  function ApplyPositionalFrom<V>(inputs: seq<V>, ds: seq<Delta<V>>, i: nat): (r: Result<seq<V>, Error>)
    requires i <= |ds|
    ensures r.Ok? <==> forall j :: i <= j < |ds| && ds[j].New? ==> j < |inputs|
    ensures r.Ok? ==> |r.value| == |inputs|
    ensures r.Ok? ==> forall j :: 0 <= j < |inputs| ==> r.value[j] == if i <= j < |ds| then Patch(inputs[j], ds[j]) else inputs[j]
    decreases |ds| - i
  {
    if i == |ds| then Ok(inputs)
    else
      match ds[i]
      case Unchanged => ApplyPositionalFrom(inputs, ds, i + 1)
      case New(v) =>
        if i < |inputs| then ApplyPositionalFrom(inputs[i := v], ds, i + 1)
        else Err(IndexError)
  }

  /** Some positional delta is new. */
  predicate AnyNewAt<V>(ds: seq<Delta<V>>) {
    exists i :: 0 <= i < |ds| && ds[i].New?
  }

  /**
   * deps-compute-update.py:76-90 with the call the `Diffs` interface
   * (lines 51-63) asks for: the positional arguments as values and the
   * named ones as keywords, and the result reported as a dep-like delta
   * (line 48), a new value, or `Unchanged` (Python's `None`) when no delta
   * was new.
   */
  function Update<K, V, R>(rr: Rerunner<K, V, R>, st: RerunState<K, V>, ds: seq<Delta<V>>, named: Dict<K, Delta<V>>): Result<(Reply<R>, RerunState<K, V>), Error> {
    match ApplyPositional(st.inputs, ds)
    case Err(e) => Err(e)
    case Ok(inputs) =>
      var st' := RerunState(inputs, ApplyNamed(st.named, named));
      if AnyNewAt(ds) || AnyNew(named) then Ok((Delta(New(Run(rr, st'))), st'))
      else Ok((Delta(Unchanged), st'))
  }

  /**
   * deps-compute-update.py:90 as written: `f(*inputs, *named_inputs)`
   * spreads the named dictionary positionally, so the function gets the
   * values followed by the names and no keyword argument at all, and its
   * result is returned bare rather than as `New`.
   */
  function UpdateAsWritten<K(!new), V, R>(rr: Rerunner<K, V, R>, st: RerunState<K, V>, ds: seq<Delta<V>>, named: Dict<K, Delta<V>>): (r: Result<(Reply<R>, RerunState<K, V>), Error>)
    ensures r.Ok? <==> forall i :: 0 <= i < |ds| && ds[i].New? ==> i < |st.inputs|
    ensures r.Ok? ==> Patched(st, ds, named, r.value.1)
    ensures r.Ok? ==> r.value.0.Bare? || r.value.0 == Delta(Unchanged)
    ensures r.Ok? ==> (r.value.0 == Delta(Unchanged) <==> !AnyNewAt(ds) && NewValues(named.items) == map[])
    ensures r.Ok? && r.value.0.Bare? ==> r.value.0.value == rr.f(Vals(r.value.1.inputs) + Keys(r.value.1.named.keys), map[])
  {
    AnyNewIff(named);
    ApplyNamedValues(st.named, named);
    match ApplyPositional(st.inputs, ds)
    case Err(e) => Err(e)
    case Ok(inputs) =>
      var st' := RerunState(inputs, ApplyNamed(st.named, named));
      if AnyNewAt(ds) || AnyNew(named) then Ok((Bare(rr.f(Vals(inputs) + Keys(st'.named.keys), map[])), st'))
      else Ok((Delta(Unchanged), st'))
  }

  /** The arguments after the deltas: new values where they are new, the old ones elsewhere. */
  ghost predicate Patched<K, V>(st: RerunState<K, V>, ds: seq<Delta<V>>, named: Dict<K, Delta<V>>, st': RerunState<K, V>) {
    && |st'.inputs| == |st.inputs|
    && (forall i :: 0 <= i < |st.inputs| ==> st'.inputs[i] == if i < |ds| then Patch(st.inputs[i], ds[i]) else st.inputs[i])
    && st'.named.items == st.named.items + NewValues(named.items)
  }

  /**
   * The stage law of the rerunner: `update` fails exactly when a new
   * positional delta is past the end of the arguments; otherwise it patches
   * the arguments, and its reply patched onto the previous result gives the
   * function's result on the new arguments, which is the state a fresh
   * `compute` would keep.  The reply is `Unchanged` exactly when no delta
   * was new.
   */
  lemma UpdateExact<K(!new), V, R>(rr: Rerunner<K, V, R>, st: RerunState<K, V>, ds: seq<Delta<V>>, named: Dict<K, Delta<V>>)
    ensures Update(rr, st, ds, named).Ok? <==> forall i :: 0 <= i < |ds| && ds[i].New? ==> i < |st.inputs|
    ensures Update(rr, st, ds, named).Ok? ==>
      var (reply, st') := Update(rr, st, ds, named).value;
      && Patched(st, ds, named, st')
      && reply.Delta?
      && Patch(Run(rr, st), reply.delta) == Compute(rr, st'.inputs, st'.named).0
      && st' == Compute(rr, st'.inputs, st'.named).1
      && (reply.delta.Unchanged? <==> !AnyNewAt(ds) && NewValues(named.items) == map[])
  {
    AnyNewIff(named);
    ApplyNamedValues(st.named, named);
    if Update(rr, st, ds, named).Ok? {
      var (reply, st') := Update(rr, st, ds, named).value;
      if reply.delta.Unchanged? {
        assert st'.inputs == st.inputs;
        assert st'.named.items == st.named.items;
      }
    }
  }

  /**
   * With a function that counts its keyword arguments, a rerunner computed
   * with one named argument answers 1; after a new value for that argument
   * the update as written answers a bare 0, because the name arrived as a
   * positional argument, where the corrected update answers `New(1)`.
   */
  lemma UpdateAsWrittenDropsNames()
    ensures var rr := Rerunner((args: seq<Arg<string, int>>, kw: map<string, int>) => |kw|);
      var named := Set(Empty<string, int>(), "x", 1);
      var deltas := Set(Empty<string, Delta<int>>(), "x", New(2));
      var (b, st) := Compute(rr, [], named);
      && b == 1
      && UpdateAsWritten(rr, st, [], deltas) == Ok((Bare(0), RerunState([], Set(named, "x", 2))))
      && Update(rr, st, [], deltas) == Ok((Delta(New(1)), RerunState([], Set(named, "x", 2))))
  {
    var rr := Rerunner((args: seq<Arg<string, int>>, kw: map<string, int>) => |kw|);
    var named := Set(Empty<string, int>(), "x", 1);
    var deltas := Set(Empty<string, Delta<int>>(), "x", New(2));
    assert deltas.keys == ["x"];
    assert AnyNew(deltas) by {
      assert deltas.keys[0] in deltas.items && deltas.items[deltas.keys[0]].New?;
    }
    assert ApplyNamed(named, deltas) == Set(named, "x", 2);
    assert |map["x" := 2]| == 1;
  }
}

=== FILE: stages.dfy ===
/**
 * The "differentiable" stage of diffs.py (lines 4-9): `compute` turns inputs
 * into outputs and remembers whatever state `update` needs; `update`, called
 * only after `compute`, turns deltas of the inputs into deltas of the
 * outputs.  A Python object that mutates itself becomes a pair of pure
 * functions that take and return the state.
 *
 * The interface comments say what `update` owes its caller: given deltas of
 * the inputs it returns the deltas of the outputs (diffs.py:8;
 * deps-compute-update.py:58-63), so the returned delta applied to the old
 * output must be the output `compute` would give on the patched input.
 * `Incremental` states this against a from-scratch denotation `den`, a
 * state invariant `inv`, and the two ways of applying a delta: `pa` to an
 * input and `pb` to an output.
 */
module Stages {

  datatype Stage<!S, !A, !B, !DA, !DB> = Stage(compute: A -> (B, S), update: (S, DA) -> (DB, S))

  /** `compute` of `a` yields the from-scratch output and a state the invariant ties to `a`. */
  ghost predicate ComputesAs<S, A, B, DA, DB>(st: Stage<S, A, B, DA, DB>, den: A -> B, inv: (S, A) -> bool, a: A) {
    && st.compute(a).0 == den(a)
    && inv(st.compute(a).1, a)
  }

  /**
   * In a state that the invariant ties to input `a`, `update` with delta `da`
   * yields the delta that carries the old output to the from-scratch output
   * of the new input, and a state tied to the new input.
   */
  ghost predicate UpdatesAs<S, A, B, DA, DB>(st: Stage<S, A, B, DA, DB>, den: A -> B, inv: (S, A) -> bool,
                                            pa: (A, DA) -> A, pb: (B, DB) -> B, s: S, a: A, da: DA) {
    inv(s, a) ==>
      && pb(den(a), st.update(s, da).0) == den(pa(a, da))
      && inv(st.update(s, da).1, pa(a, da))
  }

  ghost predicate Incremental<S(!new), A(!new), B, DA(!new), DB>(st: Stage<S, A, B, DA, DB>, den: A -> B, inv: (S, A) -> bool,
                                              pa: (A, DA) -> A, pb: (B, DB) -> B) {
    && (forall a :: ComputesAs(st, den, inv, a))
    && (forall s, a, da :: UpdatesAs(st, den, inv, pa, pb, s, a, da))
  }

  /** `a` with the deltas `ds` applied one after the other. */
  function PatchAll<A, D>(pa: (A, D) -> A, a: A, ds: seq<D>): A
    decreases |ds|
  {
    if |ds| == 0 then a else PatchAll(pa, pa(a, ds[0]), ds[1..])
  }

  /** Applying one more delta at the end. */
  lemma {:induction false} PatchAllSnoc<A, D>(pa: (A, D) -> A, a: A, ds: seq<D>, d: D)
    ensures PatchAll(pa, a, ds + [d]) == pa(PatchAll(pa, a, ds), d)
    decreases |ds|
  {
    if |ds| > 0 {
      PatchAllSnoc(pa, pa(a, ds[0]), ds[1..], d);
      assert (ds + [d])[1..] == ds[1..] + [d];
    }
  }

  /** The outputs and the final state of the updates `ds`, one after the other, from state `s`. */
  function Replay<S, A, B, DA, DB>(st: Stage<S, A, B, DA, DB>, s: S, ds: seq<DA>): (r: (seq<DB>, S))
    ensures |r.0| == |ds|
    decreases |ds|
  {
    if |ds| == 0 then ([], s)
    else
      var (db, s1) := st.update(s, ds[0]);
      var (dbs, s2) := Replay(st, s1, ds[1..]);
      ([db] + dbs, s2)
  }

  /**
   * Any number of updates after a `compute` keeps an incremental stage
   * exact: applying the returned output deltas to the first output gives the
   * from-scratch output of the input with every delta applied.
   */
  lemma {:induction false} ReplayExact<S(!new), A(!new), B, DA(!new), DB>(st: Stage<S, A, B, DA, DB>, den: A -> B, inv: (S, A) -> bool,
                                                      pa: (A, DA) -> A, pb: (B, DB) -> B, s: S, a: A, ds: seq<DA>)
    requires Incremental(st, den, inv, pa, pb) && inv(s, a)
    ensures PatchAll(pb, den(a), Replay(st, s, ds).0) == den(PatchAll(pa, a, ds))
    ensures inv(Replay(st, s, ds).1, PatchAll(pa, a, ds))
    decreases |ds|
  {
    if |ds| > 0 {
      assert UpdatesAs(st, den, inv, pa, pb, s, a, ds[0]);
      var (db, s1) := st.update(s, ds[0]);
      ReplayExact(st, den, inv, pa, pb, s1, pa(a, ds[0]), ds[1..]);
      assert Replay(st, s, ds).0 == [db] + Replay(st, s1, ds[1..]).0;
      assert ([db] + Replay(st, s1, ds[1..]).0)[1..] == Replay(st, s1, ds[1..]).0;
    }
  }

  /** The same, starting from `compute` of `a`. */
  lemma ComputeThenReplay<S(!new), A(!new), B, DA(!new), DB>(st: Stage<S, A, B, DA, DB>, den: A -> B, inv: (S, A) -> bool,
                                          pa: (A, DA) -> A, pb: (B, DB) -> B, a: A, ds: seq<DA>)
    requires Incremental(st, den, inv, pa, pb)
    ensures var (b, s) := st.compute(a); PatchAll(pb, b, Replay(st, s, ds).0) == den(PatchAll(pa, a, ds))
  {
    assert ComputesAs(st, den, inv, a);
    ReplayExact(st, den, inv, pa, pb, st.compute(a).1, a, ds);
  }
}

=== FILE: sum.dfy ===
/**
 * `Sum` of diffs.py (lines 60-70): aggregation with constant work per edit.
 * `compute` keeps the list of entries and returns its total; `update` takes
 * a list of `(index, new value)` edits, applies them in order and returns
 * how much the total moved.  Indices follow Python: a negative index counts
 * from the end, and one outside the list raises `IndexError`.
 */
module Sum {
  import opened Wrappers

  datatype Error = IndexError

  /** An edit `(i, v)`: the entry at Python index `i` becomes `v`. */
  type Edit = (int, int)

  function Total(xs: seq<int>): int
    decreases |xs|
  {
    if |xs| == 0 then 0 else xs[0] + Total(xs[1..])
  }

  /** Python accepts index `i` into a list of length `n` exactly when `-n <= i < n`. */
  predicate InRange(n: nat, i: int) {
    -(n as int) <= i < n
  }

  /** The position Python index `i` denotes. */
  function Slot(n: nat, i: int): (k: nat)
    requires InRange(n, i)
    ensures k < n
    ensures i >= 0 ==> k == i
    ensures i < 0 ==> k - n == i
  {
    if i < 0 then n + i else i
  }

  predicate AllInRange(n: nat, edits: seq<Edit>) {
    forall j :: 0 <= j < |edits| ==> InRange(n, edits[j].0)
  }

  /** The entries after the edits, applied in order: the reference for `update`. */
  function Edited(xs: seq<int>, edits: seq<Edit>): (r: seq<int>)
    requires AllInRange(|xs|, edits)
    ensures |r| == |xs|
    decreases |edits|
  {
    if |edits| == 0 then xs
    else
      var (i, v) := edits[|edits| - 1];
      Edited(xs, edits[..|edits| - 1])[Slot(|xs|, i) := v]
  }

  /** The value position `k` ends with: that of the last edit hitting it, or its old value. */
  function LastWrite(xs: seq<int>, edits: seq<Edit>, k: nat): int
    requires AllInRange(|xs|, edits) && k < |xs|
    decreases |edits|
  {
    if |edits| == 0 then xs[k]
    else if Slot(|xs|, edits[|edits| - 1].0) == k then edits[|edits| - 1].1
    else LastWrite(xs, edits[..|edits| - 1], k)
  }

  /** Repeated indices: every position holds its last edit, and untouched positions keep their values. */
  lemma {:induction false} EditedIsLastWrite(xs: seq<int>, edits: seq<Edit>, k: nat)
    requires AllInRange(|xs|, edits) && k < |xs|
    ensures Edited(xs, edits)[k] == LastWrite(xs, edits, k)
    ensures (forall j :: 0 <= j < |edits| ==> Slot(|xs|, edits[j].0) != k) ==> Edited(xs, edits)[k] == xs[k]
    decreases |edits|
  {
    if |edits| > 0 {
      var front := edits[..|edits| - 1];
      assert AllInRange(|xs|, front) by {
        forall j | 0 <= j < |front| ensures InRange(|xs|, front[j].0) {
          assert front[j] == edits[j];
        }
      }
      EditedIsLastWrite(xs, front, k);
      if forall j :: 0 <= j < |edits| ==> Slot(|xs|, edits[j].0) != k {
        assert forall j :: 0 <= j < |front| ==> front[j] == edits[j];
      }
    }
  }

  /** Setting one entry moves the total by the difference. */
  lemma {:induction false} TotalSet(xs: seq<int>, k: nat, v: int)
    requires k < |xs|
    ensures Total(xs[k := v]) == Total(xs) - xs[k] + v
    decreases |xs|
  {
    if k > 0 {
      assert xs[k := v][1..] == xs[1..][k - 1 := v];
      TotalSet(xs[1..], k - 1, v);
    } else {
      assert xs[k := v][1..] == xs[1..];
    }
  }

  /** diffs.py:62-64: the entries to keep, and their total. */
  function Compute(entries: seq<int>): (r: (int, seq<int>)) {
    (Total(entries), entries)
  }

  /**
   * diffs.py:65-70: applies the edits in order and returns the change of
   * the total, keeping it up to date one edit at a time.  It fails exactly
   * when some edit's index is out of range.
   */
  method Update(entries: seq<int>, edits: seq<Edit>) returns (r: Result<(int, seq<int>), Error>)
    ensures r.Err? <==> !AllInRange(|entries|, edits)
    ensures r.Ok? ==> r.value.1 == Edited(entries, edits)
    ensures r.Ok? ==> Total(entries) + r.value.0 == Total(r.value.1)
  {
    var diff := 0;
    var xs := entries;
    var j := 0;
    while j < |edits|
      invariant 0 <= j <= |edits|
      invariant AllInRange(|entries|, edits[..j])
      invariant xs == Edited(entries, edits[..j])
      invariant Total(entries) + diff == Total(xs)
    {
      var (i, v) := edits[j];
      if !InRange(|xs|, i) {
        return Err(IndexError);
      }
      var k := Slot(|xs|, i);
      TotalSet(xs, k, v);
      diff := diff + (v - xs[k]);
      xs := xs[k := v];
      assert edits[..j + 1][..j] == edits[..j];
      j := j + 1;
    }
    assert edits[..j] == edits;
    return Ok((diff, xs));
  }
}

=== FILE: wrappers.dfy ===
/** Failure-carrying result types shared by every module of the model. */
module Wrappers {

  /** An optional value: Python's `None` or a present value. */
  datatype Option<+T> = None | Some(value: T)

  /** The outcome of an operation that can raise: `Ok` or the raised error. */
  datatype Result<+T, +E> = Ok(value: T) | Err(error: E)
}
